=== FILE: README.md ===
# LocalBounty Mart in Dafny

LocalBounty Mart is a marketplace where local sellers list farm produce,
groceries and handmade goods and shoppers buy them. This project models its
storefront logic and its small product API.

The storefront parts modelled are:

- the shopping cart kept by the application context;
- the checkout's shipping-form gate, payment validation and order snapshot;
- the seller's product catalogue: tier limits, the product form and the table;
- the order views and the seller dashboard;
- the product and seller browse pages;
- the promotional, marketing-automation and login pages;
- the navigation bar's cart counter and account link.

The backend part is the Express server's in-memory product table, with its
REST handlers and its upload checks.

## How the model is organised

There is one module per source file. Shared pieces live in three modules:

- `Types` holds the records.
- `Text` models `toLowerCase`, `includes`, `startsWith` and decimal rendering.
- `Seqs` models `Array.prototype.filter` and a stable comparator sort (an insertion sort). `Seqs.SortByStable` proves the stability.

`Sorting` holds the sort-toggle state and the numeric and collating comparators that several pages share.

State that a component changes through a setter is a class:

- `AppContext.AppState` holds the cart and user type.
- `Server.ProductStore` holds the product table and its id counter.
- The page states (`CheckoutPage`, `ProductDetailView`, `ImageField`,
  `ProductManagementPage`, `OrdersPage`, `Dashboard`, `PromotionsPage`,
  `WorkflowBoard`, `LoginPage`) are classes too.

Each method states its new state through a function on the old state. The
properties of those functions are proved as lemmas.

Inputs that the code draws from the browser, the clock or `Math.random` are
parameters. These are:

- the drawn id numbers;
- timestamps, as integer milliseconds;
- the object URL of a picked file;
- the stored upload file name;
- the collation behind `localeCompare`. Every lemma that relies on it requires
  it to be a consistent comparator.

The context fields `orders`, `addOrder`, `updateOrderStatus`, `products` and
`subscriptionTier` are not defined by the application context. They enter as
parameters:

- an optional order list;
- a flag saying whether `addOrder` / `updateOrderStatus` is present;
- a tier.

Money is `real`: exact, with no rounding.

The seeded sellers and products are built by `MockData.SellerRows` and
`MockData.ProductRows` from a table of description texts. `Sellers()` and
`Products()` apply them to the shipped texts. The seed invariants are proved
for any description table, so they hold of the shipped one in particular.

Where the model follows the code rather than its evident intent:

- **POST with a JSON `null` body.** The server's `nextProductId++` is
  evaluated before reading `productData.name` throws. So the id counter
  advances although the answer is 400 and nothing is stored
  (`Server.ProductStore.Create`).
- **Rejected uploads.** A file refused by multer's filter or by its size limit
  never reaches the handler's `try`. It goes to Express's default error handler,
  which answers 500, not 400 (`Server.StatusCode`).
- **Random product ids.** `handleAddProduct` draws `p<random>`. A draw can
  repeat a seeded id: drawing 3 gives `p3`, which is already listed
  (`ProductManagement.DrawnIdMayRepeat`).
- **Order of the upload checks.** The product form checks size before type.
  The server checks type before size. Both accept exactly the same files
  (`ProductForm.PickerAgreesWithServer`).
- **Handing over the order.** The checkout hands the order to `addOrder` only
  when the context provides it. The cart is cleared in either case.

## Model

| member | source | states |
|---|---|---|
| AppContext.Find | src/contexts/AppContext.tsx:29 | yields a line with the product id exactly when the cart has one; the line found is in the cart |
| AppContext.MapMatching | src/contexts/AppContext.tsx:32-36 | same length; every line with the id gets the new quantity, every other line is unchanged |
| AppContext.AppState.constructor | src/contexts/AppContext.tsx:20-21 | the cart starts empty and the user is a guest |
| AppContext.AppState.AddToCart | src/contexts/AppContext.tsx:27-40 | the cart becomes the merge of the old cart with the product and keeps at most one line per id; the user type is unchanged |
| AppContext.AppState.RemoveFromCart | src/contexts/AppContext.tsx:49-51 | the cart becomes the old cart without the lines of that id and keeps at most one line per id |
| AppContext.AppState.UpdateQuantity | src/contexts/AppContext.tsx:54-65 | a quantity of 0 or less removes the line; a positive one overwrites the quantity of the matching line; at most one line per id is kept |
| AppContext.AppState.ClearCart | src/contexts/AppContext.tsx:68-70 | the cart is empty and its total is 0 |
| AppContext.AppState.SetUserType | src/contexts/AppContext.tsx:21 | sets the user type and leaves the cart alone |
| AppContext.CartTotalAppend | src/contexts/AppContext.tsx:24 | the total of two carts put together is the sum of their totals |
| AppContext.CartTotalReplace | src/contexts/AppContext.tsx:24 | replacing one line changes the total by the difference of the two line totals |
| AppContext.AddToExistingLine | src/contexts/AppContext.tsx:31-36 | adding a product already in the cart raises only that line's quantity by the amount; the length is unchanged |
| AppContext.AddNewLine | src/contexts/AppContext.tsx:37-39 | adding a new product appends exactly one line (product, quantity) and keeps the other lines |
| AppContext.AddKeepsUniqueIds | src/contexts/AppContext.tsx:27-40 | adding keeps at most one line per product id |
| AppContext.AddNewTotal | src/contexts/AppContext.tsx:24-39 | adding q units of a product not yet in the cart raises the total by q times its price |
| AppContext.AddExistingTotal | src/contexts/AppContext.tsx:24-36 | adding q units of a product already in the cart raises the total by q times the existing line's unit price, which is the line `find` returns |
| AppContext.RemoveDropsOnlyId | src/contexts/AppContext.tsx:50 | after removal no line has the id, and every line with another id is still there |
| AppContext.RemoveExistingLine | src/contexts/AppContext.tsx:50 | removing the id of line k removes exactly line k, keeping the others in order |
| AppContext.RemoveAbsentId | src/contexts/AppContext.tsx:50 | removing an id that is not in the cart changes nothing |
| AppContext.RemoveKeepsUniqueIds | src/contexts/AppContext.tsx:50 | removal keeps at most one line per id |
| AppContext.UpdateNonPositiveRemoves | src/contexts/AppContext.tsx:55-58 | an update to 0 or less is exactly a removal |
| AppContext.UpdatePositiveSetsLine | src/contexts/AppContext.tsx:60-64 | a positive update overwrites only the matching line's quantity |
| AppContext.UpdateAbsentId | src/contexts/AppContext.tsx:60-64 | an update of an absent id leaves the cart unchanged |
| AppContext.UpdateKeepsUniqueIds | src/contexts/AppContext.tsx:54-65 | updates keep at most one line per id |
| AppContext.AddKeepsPositive | src/contexts/AppContext.tsx:27-40 | adding a positive quantity keeps every line's quantity positive (the code itself does not check positivity) |
| AppContext.UpdateKeepsPositive | src/contexts/AppContext.tsx:54-65 | any update keeps every line's quantity positive, since 0 or less removes the line |
| Navbar.TotalItemsAppend | src/components/Navbar.tsx:20 | the item count of two carts put together is the sum of their counts |
| Navbar.TotalItemsReplace | src/components/Navbar.tsx:20 | replacing one line changes the count by the difference of the quantities |
| Navbar.AddToCartRaisesCount | src/components/Navbar.tsx:20 | adding q units of any product raises the item count by exactly q |
| Navbar.BadgeShownIffNonEmpty | src/components/Navbar.tsx:68 | when every quantity is positive, the badge shows iff the cart is not empty, and the count is at least the number of lines |
| Navbar.AccountLink | src/components/Navbar.tsx:49-62 | a guest gets /login labelled "Login", a seller /dashboard labelled "Dashboard", a customer /account labelled "My Account", each iff |
| Navbar.MobileAccountLink | src/components/Navbar.tsx:121-136 | the same targets as the desktop link; the seller's text reads "Seller Dashboard" |
| CartPage.HandleCheckout | src/pages/CartPage.tsx:23-42 | an empty cart is refused and left as it is; otherwise the cart is cleared |
| CartPage.MinusOnOneRemovesLine | src/pages/CartPage.tsx:95 | the minus button on a quantity-1 line removes exactly that line |
| CartPage.PlusKeepsWithinStock | src/pages/CartPage.tsx:100-103 | an enabled plus button never takes a line above its stock |
| CartPage.MinusKeepsWithinStock | src/pages/CartPage.tsx:95 | the minus button never takes a line above its stock |
| CartPage.LineTotals | src/pages/CartPage.tsx:110 | one line total per cart line, each the price times the quantity |
| CartPage.SummaryMatchesLineTotals | src/pages/CartPage.tsx:164 | the summary total is the sum of the line totals, with no tax or shipping |
| ProductDetail.FindProduct | src/pages/ProductDetailPage.tsx:28 | none iff no product has the id; otherwise a listed product with that id |
| ProductDetail.ReplayStaysInRange | src/pages/ProductDetailPage.tsx:47-52 | starting within [1, stock], any sequence of changes stays within [1, stock] |
| ProductDetail.ProductDetailView.constructor | src/pages/ProductDetailPage.tsx:26 | the quantity starts at 1 |
| ProductDetail.ProductDetailView.HandleQuantityChange | src/pages/ProductDetailPage.tsx:47-52 | a change is applied iff the result lies in [1, stock]; otherwise the quantity is unchanged |
| ProductDetail.ProductDetailView.HandleAddToCart | src/pages/ProductDetailPage.tsx:42-45 | adds the selected quantity of the product to the cart, then resets the quantity to 1 |
| Checkout.MissingFieldReported | src/pages/CheckoutPage.tsx:63-64 | a field is reported missing iff it is empty |
| Checkout.NothingMissingIff | src/pages/CheckoutPage.tsx:63-73 | nothing is missing iff all seven shipping fields are filled |
| Checkout.MpesaPhoneComplete | src/pages/CheckoutPage.tsx:79-83 | each of "", "0", "254" and "+254" followed by 7 and eight digits is accepted |
| Checkout.MpesaPhoneSound | src/pages/CheckoutPage.tsx:79-83 | every accepted phone is such a prefix followed by such a body, 9, 10, 12 or 13 characters long |
| Checkout.MpesaPhoneExamples | src/pages/CheckoutPage.tsx:81 | "0712345678" and "+254712345678" pass; "123" and "0812345678" fail |
| Checkout.ValidateCard | src/pages/CheckoutPage.tsx:85-123 | accepted iff number length ≥ 16, name set, NN/NN expiry and CVC length ≥ 3; otherwise the first failing check is reported |
| Checkout.ExpiryExamples | src/pages/CheckoutPage.tsx:104 | "12/27" and "99/00" pass (no month check); "1/27", "12-27" and "12/2027" fail |
| Checkout.DecideAcceptsIff | src/pages/CheckoutPage.tsx:125-162 | payment is accepted iff the fields are filled and the chosen method's input is valid |
| Checkout.OrderTotalFacts | src/pages/CheckoutPage.tsx:165-169 | total = 1.16 × subtotal + 500; monotone; a subtotal of 1000 gives 1660 |
| Checkout.SnapshotItems | src/pages/CheckoutPage.tsx:184-189 | the order lines are a same-length, same-order copy of the cart lines (id, name, quantity, unit price) |
| Checkout.SnapshotKeepsSubtotal | src/pages/CheckoutPage.tsx:184-190 | the order lines add up to the cart total |
| Checkout.BuildOrderFacts | src/pages/CheckoutPage.tsx:172-200 | the order copies the customer's name, email and phone and the whole shipping address, holds exactly the snapshot of the cart lines (id, name, quantity, price), is pending with a completed payment of the chosen method, takes the first line's seller, totals subtotal + tax + shipping, and takes its creation and update times from two separate clock readings |
| Checkout.CheckoutPage.constructor | src/pages/CheckoutPage.tsx:20-36 | empty forms, M-Pesa selected, not processing |
| Checkout.CheckoutPage.ProcessPayment | src/pages/CheckoutPage.tsx:125-163 | the decision follows the payment checks; processing stays on iff payment goes ahead |
| Checkout.CheckoutPage.CompleteOrder | src/pages/CheckoutPage.tsx:165-209 | builds the order from the old cart, clears the cart and stops processing |
| Checkout.CheckoutPage.HandleShippingSubmit | src/pages/CheckoutPage.tsx:60-77 | missing fields or refused payment leave the cart unchanged; accepted payment places the order and clears the cart |
| Server.CheckUpload | server/index.js:29-37 | accepted iff the MIME type starts with image/ and the size is at most 2 MiB; a non-image is refused as such |
| Server.StatusCode | server/index.js:53-136 | 404 iff not found, 400 iff the product data is invalid, 2xx iff the call succeeded |
| Server.FindIndex | server/index.js:99 | the first index with the id, or -1 iff no entry has it |
| Server.NewProductDefaults | server/index.js:69-87 | a created product gets the placeholder image without an upload and seller s5 without a seller id; its creation and update times are two separate clock readings |
| Server.UpdateKeepsIdentity | server/index.js:105-119 | an update keeps the id, seller and creation time, and the image unless a new one is uploaded |
| Server.IssuedIdInjective | server/index.js:70 | different counter values give different ids |
| Server.NumberedIdsDistinct | server/index.js:70 | under the store invariant no two entries share an id, and the next id is new |
| Server.ProductStore.constructor | server/index.js:44-45 | an empty table with the counter at 1 |
| Server.ProductStore.GetAll | server/index.js:53-55 | lists the whole table with 200 |
| Server.ProductStore.GetById | server/index.js:57-63 | the first entry with the id, or 404 |
| Server.ProductStore.Create | server/index.js:65-95 | a bad upload or unparsable text changes nothing; a null body moves only the counter; otherwise appends under a fresh id p<n> and advances the counter by one |
| Server.ProductStore.Update | server/index.js:97-127 | bad upload, 404 or 400 change nothing; otherwise replaces the entry at the same index and nothing else |
| Server.ProductStore.Delete | server/index.js:129-137 | 404 changes nothing; otherwise removes exactly the found entry; the counter never moves |
| Server.DeleteKeepsOthers | server/index.js:135 | deletion shortens the table by one and keeps the other entries in order |
| Seqs.SortByStable | src/pages/ProductManagementPage.tsx:162 | the sort is stable: the elements that compare equal to any given one keep their input order |
| Sorting.Flip | src/pages/ProductManagementPage.tsx:182 | flipping always changes the direction |
| Sorting.HandleSort | src/pages/ProductManagementPage.tsx:180-187 | the clicked field becomes the sort field; the same field flips the direction, a new one starts at the page's reset direction |
| Sorting.HandleSortTwice | src/pages/ProductManagementPage.tsx:180-187 | clicking the current field twice restores the state |
| Sorting.ByNumberIsComparator | src/pages/ProductManagementPage.tsx:165-168 | a numeric key sort in either direction is a consistent comparator |
| Sorting.ByTextIsComparator | src/pages/ProductManagementPage.tsx:171-174 | a collated text sort in either direction is a consistent comparator when the collation is |
| MockData.TierRow | src/data/mockData.ts:4-44 | each tier's row is in the table under that tier's id |
| MockData.TierTableShape | src/data/mockData.ts:4-44 | three distinct tiers with limits 10, 50 and -1; -1 only for premium |
| MockData.SeedProductIdsNumbered | src/data/mockData.ts:89-222 | the twelve seeded product ids are p1 to p12 in order, whatever the description texts |
| MockData.SeedProductIdsUnique | src/data/mockData.ts:89-222 | no two seeded products share an id, whatever the description texts |
| MockData.SeedProductsPricedAndStocked | src/data/mockData.ts:89-222 | every seeded price is positive and every stock is not negative, whatever the description texts |
| MockData.ProductDescriptionsLongEnough | src/data/mockData.ts:89-222 | the shipped catalogue has one description per product, each at least 10 characters long |
| MockData.SeedProductsHaveSellers | src/data/mockData.ts:46-222 | every seeded product names one of the seeded sellers, whatever the description texts of either list |
| MockData.SeedSellersWithinTierLimits | src/data/mockData.ts:4-87 | every seeded seller's product count respects its tier's limit, whatever the description texts |
| MockData.CategoryLabelInjective | src/data/mockData.ts:224-235 | different categories have different labels |
| MockData.CategoryIconInjective | src/data/mockData.ts:237-248 | different categories have different icons |
| MockData.DeliveryLabelsDistinct | src/data/mockData.ts:250-261 | the three delivery options have three distinct labels, none "Unknown" |
| MockData.DeliveryLabelUnknown | src/data/mockData.ts:250-261 | any other string is labelled "Unknown" |
| ProductForm.NewProductDefaultsInvalid | src/components/ProductForm.tsx:55-63 | without a product the defaults are price 0, stock 0, farm, both, placeholder; the default price fails the form |
| ProductForm.ExistingProductDefaults | src/components/ProductForm.tsx:37-63 | a product's own values pass the form iff its name, description, price and stock meet the rules |
| ProductForm.SeedProductsPassForm | src/components/ProductForm.tsx:37-45 | every seeded product passes the form when its description has at least 10 characters, as every shipped one does |
| ProductForm.CheckPick | src/components/ProductForm.tsx:66-88 | too large iff over 2 MiB; wrong type iff within the size but not image/ |
| ProductForm.PickerAgreesWithServer | src/components/ProductForm.tsx:71-88 | the form accepts a file iff the server would |
| ProductForm.PickerBoundary | src/components/ProductForm.tsx:71 | exactly 2 MiB is accepted, one byte more is not |
| ProductForm.ImageField.constructor | src/components/ProductForm.tsx:50-59 | the image starts at the product's image or the placeholder; the preview starts at the product's image or none |
| ProductForm.ImageField.HandleImageUpload | src/components/ProductForm.tsx:66-97 | an accepted file sets image and preview to its URL; a refused or missing file changes neither |
| ProductForm.ImageField.ClearImage | src/components/ProductForm.tsx:99-101 | clears the preview and resets the image to the placeholder |
| ProductManagement.GetProductLimit | src/pages/ProductManagementPage.tsx:115-122 | unlimited iff the tier table says -1; otherwise the table's limit |
| ProductManagement.ProductLimitFacts | src/pages/ProductManagementPage.tsx:124-126 | basic allows 9 but not 10, standard not 50, premium any count; a higher tier never allows less |
| ProductManagement.FormRoundTrip | src/pages/ProductManagementPage.tsx:134-138 | a product built from valid form values shows the same values when edited |
| ProductManagement.DrawnIdMayRepeat | src/pages/ProductManagementPage.tsx:135 | drawing 3 gives an id a seeded product already has |
| ProductManagement.ProductComparatorValid | src/pages/ProductManagementPage.tsx:162-178 | the table's comparator is consistent for every sort state |
| ProductManagement.VisibleAreTheMatches | src/pages/ProductManagementPage.tsx:156-162 | the table is a permutation of the products whose name or description contains the query |
| ProductManagement.EmptyQueryMatchesAll | src/pages/ProductManagementPage.tsx:156-159 | the empty query keeps every product |
| ProductManagement.UnsortedKeepsOrder | src/pages/ProductManagementPage.tsx:163 | with no sort field the filtered order is kept |
| ProductManagement.SortedColumns | src/pages/ProductManagementPage.tsx:165-169 | price and stock sort numerically, in both directions |
| ProductManagement.SortedTextColumns | src/pages/ProductManagementPage.tsx:171-175 | name and category follow the collation, in both directions |
| ProductManagement.ClassifyStock | src/pages/ProductManagementPage.tsx:358-364 | plentiful iff over 10, low iff 1 to 10, out of stock iff 0 or less |
| ProductManagement.ProductManagementPage.constructor | src/pages/ProductManagementPage.tsx:46-113 | starts with the five seeded listings, no query, no sort field, ascending, basic tier |
| ProductManagement.ProductManagementPage.HandleAddProduct | src/pages/ProductManagementPage.tsx:128-153 | appends exactly one product with seller s5 and keeps the others; it does not check the limit |
| ProductManagement.ProductManagementPage.HandleSort | src/pages/ProductManagementPage.tsx:180-187 | the toggle, with a new field starting ascending |
| OrdersManagement.FilterOrders | src/pages/OrdersManagementPage.tsx:95-99 | a missing list gives none; otherwise exactly the orders whose id, name or email contains the query |
| OrdersManagement.OrderComparatorValid | src/pages/OrdersManagementPage.tsx:102-129 | the order comparator is consistent for every sort state |
| OrdersManagement.SortedIsPermutation | src/pages/OrdersManagementPage.tsx:102 | the table is a permutation of the filtered orders |
| OrdersManagement.SortedOrderFacts | src/pages/OrdersManagementPage.tsx:102-120 | by default the newest order comes first; amount, creation time and update time follow the chosen direction, in both directions |
| OrdersManagement.SortedOrderTextColumns | src/pages/OrdersManagementPage.tsx:122-126 | customer name and status follow the collation, in both directions |
| OrdersManagement.OrdersPage.constructor | src/pages/OrdersManagementPage.tsx:54-57 | no query, no sort field, descending, no open order |
| OrdersManagement.OrdersPage.HandleViewOrder | src/pages/OrdersManagementPage.tsx:71-73 | opens the order |
| OrdersManagement.OrdersPage.HandleStatusChange | src/pages/OrdersManagementPage.tsx:76-92 | forwards any of the five statuses when an updater exists; the open order changes only if its id matches |
| OrdersManagement.OrdersPage.HandleSort | src/pages/OrdersManagementPage.tsx:131-138 | the toggle, with a new field starting descending |
| OrdersManagement.StatusChangeKeepsOrder | src/pages/OrdersManagementPage.tsx:85-90 | a status change touches nothing of the order but its status |
| SellerDashboard.TallyTotal | src/pages/SellerDashboardPage.tsx:29-40 | the five counts add up to the number of orders |
| SellerDashboard.TallyCountsStatus | src/pages/SellerDashboardPage.tsx:29-40 | each count is the number of orders with that status |
| SellerDashboard.CountStatuses | src/pages/SellerDashboardPage.tsx:29-40 | the loop computes the counts, whose sum is the number of orders |
| SellerDashboard.InProcessCounts | src/pages/SellerDashboardPage.tsx:168 | "In Process" counts exactly the orders being processed or shipped |
| SellerDashboard.RecentOrders | src/pages/SellerDashboardPage.tsx:26 | the first min(5, n) orders, in order |
| SellerDashboard.Dashboard.constructor | src/pages/SellerDashboardPage.tsx:14-20 | no recent orders and all counts 0 |
| SellerDashboard.Dashboard.OnOrders | src/pages/SellerDashboardPage.tsx:23-44 | recomputed from a present order list; unchanged without one |
| SellerDashboard.FeatureAvailability | src/pages/SellerDashboardPage.tsx:47-108 | four tools always; shipping and support iff standard or premium; advanced analytics and marketing iff premium; coming soon iff unavailable; a higher tier loses nothing |
| ProductsPage.StepsAreFilters | src/pages/ProductsPage.tsx:25-44 | each step filters by its predicate, "all" and the empty query keeping everything |
| ProductsPage.FiltersCompose | src/pages/ProductsPage.tsx:22-44 | the three steps keep, in order, exactly the products passing all three |
| ProductsPage.BrowseIsPermutationOfMatches | src/pages/ProductsPage.tsx:22-62 | the result is a permutation of exactly the products passing every active filter |
| ProductsPage.SortModes | src/pages/ProductsPage.tsx:47-60 | price-low is non-decreasing, price-high non-increasing, name in collation order, any other mode keeps the filtered order |
| ProductsPage.DeliveryFilterBoth | src/pages/ProductsPage.tsx:39-44 | a chosen option admits products offering both, and never products offering only the other option |
| SellersPage.ListedIffMatches | src/pages/SellersPage.tsx:16-26 | a seller is listed iff it matches both search and tier, as often as in the input |
| SellersPage.NoFilterListsAll | src/pages/SellersPage.tsx:18-24 | no query and all tiers list every seller |
| SellersPage.SortModes | src/pages/SellersPage.tsx:27-39 | rating and product count non-increasing, name in collation order |
| SellersPage.UnknownModeKeepsOrder | src/pages/SellersPage.tsx:36-37 | any other mode keeps the filtered order |
| Promotions.ToggleSelection | src/pages/PromotionalToolsPage.tsx:127-133 | the id's membership flips and no other id's changes |
| Promotions.ToggleKeepsNoDuplicates | src/pages/PromotionalToolsPage.tsx:127-133 | a selection with no duplicates stays so |
| Promotions.ToggleTwice | src/pages/PromotionalToolsPage.tsx:127-133 | toggling twice restores the selected ids, and the exact list when the id was absent |
| Promotions.TierTests | src/pages/PromotionalToolsPage.tsx:135-136 | premium implies standard or better; both agree with the dashboard's tool cards |
| Promotions.PromotionsPage.constructor | src/pages/PromotionalToolsPage.tsx:38-42 | no code, no URL, not loading, nothing selected |
| Promotions.PromotionsPage.HandleGenerateDiscount | src/pages/PromotionalToolsPage.tsx:59-66 | stores the drawn code |
| Promotions.PromotionsPage.HandleSaveDiscount | src/pages/PromotionalToolsPage.tsx:68-82 | refused iff the code is empty; saving changes no state |
| Promotions.PromotionsPage.ToggleProductSelection | src/pages/PromotionalToolsPage.tsx:127-133 | the selection becomes the toggled list |
| Promotions.PromotionsPage.BeginTrigger | src/pages/PromotionalToolsPage.tsx:84-96 | starts iff a URL is set; then loading is on, otherwise loading is untouched |
| Promotions.PromotionsPage.FinishTrigger | src/pages/PromotionalToolsPage.tsx:114-116 | loading is off after the request settles |
| Marketing.PageFor | src/pages/MarketingAutomationPage.tsx:45-49 | only premium sees the workflows; others are sent to /subscription |
| Marketing.ToggleCounts | src/pages/MarketingAutomationPage.tsx:65-81 | moves one unit between active and paused as the passed status says; the sum is kept |
| Marketing.StaleStatusDrivesCountNegative | src/pages/MarketingAutomationPage.tsx:65-129 | three presses on a fixed paused workflow take paused to -1 |
| Marketing.CountsCoverBoard | src/pages/MarketingAutomationPage.tsx:83-129 | active and paused workflows together are all workflows |
| Marketing.SampleCountsAreInitial | src/pages/MarketingAutomationPage.tsx:41-42 | the initial counters 3 and 2 are the sample workflows' counts |
| Marketing.ToggleAgreesWithCounters | src/pages/MarketingAutomationPage.tsx:65-81 | flipping a workflow's real status moves the counts exactly as the page does |
| Marketing.WorkflowBoard.constructor | src/pages/MarketingAutomationPage.tsx:41-42 | the sample statuses with counters 3 and 2 |
| Marketing.WorkflowBoard.ToggleWorkflowStatus | src/pages/MarketingAutomationPage.tsx:65-81 | flips the workflow and moves the counters; they stay non-negative and add up to the number of workflows |
| Login.UserTypeOf | src/pages/LoginPage.tsx:25 | a login never makes a guest; seller iff the seller tab |
| Login.RedirectFor | src/pages/LoginPage.tsx:33-37 | a seller goes to /seller/dashboard, anyone else to /products |
| Login.LoggedInNavbar | src/components/Navbar.tsx:49-62 | after login the navbar no longer offers /login, and leads a seller to /dashboard |
| Login.LoginPage.constructor | src/pages/LoginPage.tsx:13-15 | empty fields, customer tab |
| Login.LoginPage.SelectTab | src/pages/LoginPage.tsx:57 | the role follows the tab |
| Login.LoginPage.SetCredentials | src/pages/LoginPage.tsx:71-80 | the inputs set email and password |
| Login.LoginPage.HandleLogin | src/pages/LoginPage.tsx:19-45 | succeeds iff both fields are filled, and then sets the user type to the role and redirects; otherwise the user type is unchanged |

## Left out

- Persisting the cart and user type in `localStorage` is browser I/O. The model's cart starts empty, and a loaded cart would be an arbitrary sequence, so `UniqueIds` is an assumption of the lemmas, not a fact about loaded data.
- Timers are not modelled: the payment delays, the simulated API delay in `handleAddProduct` and the webhook wait. Navigation is not modelled either. Valid payment input leads straight to `CompleteOrder`, and navigation appears only as the returned redirect paths.
- Toasts, JSX rendering, dialogs and form wiring are not modelled.
- `Math.random` ids and codes, `Date.now` / `new Date()` timestamps, and `URL.createObjectURL` are parameters. So are multer's disk storage and the uploaded file names. Server timestamps are ISO strings in the code and integer milliseconds here. Each `new Date()` is its own reading, so the two timestamps of a new order or a created product are two parameters that may differ.
- Express wiring, CORS, body parsing, static files and `listen` are network plumbing and are not modelled.
- `JSON.parse` is reduced to three outcomes: not parsable, `null`, or an object. The effect of `parseFloat` / `parseInt` (NaN included) on `price` and `stock` is not modelled. A parsed body carries numbers already.
- JavaScript floating point, `toFixed` and `toLocaleString` are not modelled. Money is exact `real`.
- `localeCompare` is an arbitrary collation. It must be a consistent comparator wherever order is claimed.
- Lower-casing covers ASCII only. `length` counts `char`s, not UTF-16 code units.
- The order store behind `orders`, `addOrder` and `updateOrderStatus` is not in the application context. Its effect is not modelled, and there is no status transition rule to model.
- The `default` branches of `getCategoryLabel`, `getCategoryIcon` and `getProductLimit` cannot be reached with the typed enums used here, so they are not modelled.
- Sort fields that the comparators have no branch for are not modelled. The comparators answer 0 for them. The orders comparator's `updatedAt` branch is modelled (`OrdersManagement.UpdatedAtColumn`), although no header of the orders table offers it.
- The `mobileMenuOpen` toggle, the tab selection of the marketing and promotions pages, and `handleSendEmailCampaign` (which only resets a form) are not modelled.
- These pages and components are presentation-only and are not part of this model: CustomerSupportPage, ShippingManagementPage, the analytics pages, the subscription pages, HomePage, ShopperDashboardPage, the cards, CategoryFilter, Footer, App and Index.
- ProductManagement.ProductManagementPage.HandleAddProduct: requires valid form values. The handler is only reached through the form's submit after validation. The drawn number is any natural number rather than one below 1000.

## Findings

| source | as written | input that shows it | evidently intended | confidence | as-written member | corrected member |
|---|---|---|---|---|---|---|
| src/pages/MarketingAutomationPage.tsx:65-81 | each button passes its workflow's fixed sample status (line 249), which is never updated, and the counters have no lower bound | with a premium tier (the application context never supplies one, so the shipped app redirects first), press "Activate" on workflow 4 (paused) three times: paused goes 2, 1, 0, -1 and active reaches 6 of 5 workflows | a toggle flips the workflow's own status, so the counters always equal the numbers of active and paused workflows | not executed | Marketing.StaleStatusDrivesCountNegative | Marketing.WorkflowBoard.ToggleWorkflowStatus |

=== FILE: app_context.dfy ===
/**
 * The application context: the shopping cart shared by every page and the
 * role of whoever is signed in.  The cart is a list of (product, quantity)
 * lines; each state update replaces the list with a new one computed from
 * the previous list, which is what the functions below compute.
 */
module AppContext {
  import opened Types
  import Seqs

  /** What one line adds to the total: unit price times quantity. */
  function LineTotal(item: CartItem): real
  {
    item.product.price * item.quantity as real
  }

  /** `cartTotal`: the left-to-right `reduce` of the line totals, starting at 0. */
  function CartTotal(cart: seq<CartItem>): real
  {
    if cart == [] then 0.0 else CartTotal(cart[..|cart| - 1]) + LineTotal(cart[|cart| - 1])
  }

  /** No product id appears on two lines. */
  ghost predicate UniqueIds(cart: seq<CartItem>)
  {
    forall i, j :: 0 <= i < j < |cart| ==> cart[i].product.id != cart[j].product.id
  }

  /** Some line holds the product with this id. */
  ghost predicate HasLine(cart: seq<CartItem>, id: string)
  {
    exists i :: 0 <= i < |cart| && cart[i].product.id == id
  }

  /** `cart.find(item => item.product.id === id)`: the first line for `id`, if any. */
  function Find(cart: seq<CartItem>, id: string): (r: Option<CartItem>)
    ensures r.Some? ==> r.value in cart && r.value.product.id == id
    ensures r.None? <==> !HasLine(cart, id)
  {
    if cart == [] then None
    else if cart[0].product.id == id then Some(cart[0])
    else
      var r := Find(cart[1..], id);
      assert forall i :: 0 < i < |cart| ==> cart[i] == cart[1..][i - 1];
      r
  }

  /** `cart.map(item => item.product.id === id ? { ...item, quantity: f(item.quantity) } : item)`. */
  function MapMatching(cart: seq<CartItem>, id: string, f: int -> int): (r: seq<CartItem>)
    ensures |r| == |cart|
    ensures forall i :: 0 <= i < |cart| ==>
      r[i] == if cart[i].product.id == id then cart[i].(quantity := f(cart[i].quantity)) else cart[i]
  {
    if cart == [] then []
    else
      var head := if cart[0].product.id == id then cart[0].(quantity := f(cart[0].quantity)) else cart[0];
      [head] + MapMatching(cart[1..], id, f)
  }

  /** The cart that `addToCart(product, quantity)` leaves behind. */
  function AddLines(cart: seq<CartItem>, product: Product, quantity: int): seq<CartItem>
  {
    if Find(cart, product.id).Some? then MapMatching(cart, product.id, q => q + quantity)
    else cart + [CartItem(product, quantity)]
  }

  /** The cart that `removeFromCart(id)` leaves behind. */
  function RemoveLines(cart: seq<CartItem>, id: string): seq<CartItem>
  {
    Seqs.Filter(cart, (item: CartItem) => item.product.id != id)
  }

  /** The cart that `updateQuantity(id, quantity)` leaves behind: a quantity of 0 or less removes. */
  function UpdateLines(cart: seq<CartItem>, id: string, quantity: int): seq<CartItem>
  {
    if quantity <= 0 then RemoveLines(cart, id)
    else MapMatching(cart, id, _ => quantity)
  }

  /** The provider's state: the cart and the role, which starts as guest. */
  class AppState {
    var cart: seq<CartItem>
    var userType: UserType

    constructor ()
      ensures cart == [] && userType == GuestUser
    {
      cart := [];
      userType := GuestUser;
    }

    /** The `cartTotal` the provider exposes. */
    function Total(): real
      reads this
    {
      CartTotal(cart)
    }

    method AddToCart(product: Product, quantity: int)
      modifies this
      ensures cart == AddLines(old(cart), product, quantity)
      ensures old(UniqueIds(cart)) ==> UniqueIds(cart)
      ensures userType == old(userType)
    {
      if UniqueIds(cart) {
        AddKeepsUniqueIds(cart, product, quantity);
      }
      cart := AddLines(cart, product, quantity);
    }

    method RemoveFromCart(id: string)
      modifies this
      ensures cart == RemoveLines(old(cart), id)
      ensures old(UniqueIds(cart)) ==> UniqueIds(cart)
      ensures userType == old(userType)
    {
      if UniqueIds(cart) {
        RemoveKeepsUniqueIds(cart, id);
      }
      cart := RemoveLines(cart, id);
    }

    method UpdateQuantity(id: string, quantity: int)
      modifies this
      ensures quantity <= 0 ==> cart == RemoveLines(old(cart), id)
      ensures quantity > 0 ==> cart == MapMatching(old(cart), id, _ => quantity)
      ensures old(UniqueIds(cart)) ==> UniqueIds(cart)
      ensures userType == old(userType)
    {
      if UniqueIds(cart) {
        UpdateKeepsUniqueIds(cart, id, quantity);
      }
      if quantity <= 0 {
        RemoveFromCart(id);
        return;
      }
      cart := MapMatching(cart, id, _ => quantity);
    }

    method ClearCart()
      modifies this
      ensures cart == [] && Total() == 0.0
      ensures userType == old(userType)
    {
      cart := [];
    }

    method SetUserType(t: UserType)
      modifies this
      ensures userType == t && cart == old(cart)
    {
      userType := t;
    }
  }

  /** The total is additive over concatenation. */
  lemma {:induction false} CartTotalAppend(a: seq<CartItem>, b: seq<CartItem>)
    ensures CartTotal(a + b) == CartTotal(a) + CartTotal(b)
    decreases |b|
  {
    if b == [] {
      assert a + b == a;
    } else {
      var b' := b[..|b| - 1];
      assert (a + b)[..|a + b| - 1] == a + b';
      assert (a + b)[|a + b| - 1] == b[|b| - 1];
      CartTotalAppend(a, b');
    }
  }

  /** Replacing one line changes the total by exactly the difference of the two line totals. */
  lemma {:induction false} CartTotalReplace(cart: seq<CartItem>, k: nat, item: CartItem)
    requires k < |cart|
    ensures CartTotal(cart[k := item]) == CartTotal(cart) - LineTotal(cart[k]) + LineTotal(item)
  {
    var c := cart[k := item];
    assert cart == cart[..k] + [cart[k]] + cart[k + 1..];
    assert c == cart[..k] + [item] + cart[k + 1..];
    CartTotalAppend(cart[..k] + [cart[k]], cart[k + 1..]);
    CartTotalAppend(cart[..k] + [item], cart[k + 1..]);
    CartTotalAppend(cart[..k], [cart[k]]);
    CartTotalAppend(cart[..k], [item]);
  }

  /** Under unique ids, the line for `id` sits at a known index and no other line matches. */
  lemma OnlyMatch(cart: seq<CartItem>, k: nat, id: string)
    requires UniqueIds(cart) && k < |cart| && cart[k].product.id == id
    ensures forall i :: 0 <= i < |cart| && i != k ==> cart[i].product.id != id
  {
  }

  /** Adding a product that already has a line bumps exactly that line's quantity; length and other lines stay. */
  lemma AddToExistingLine(cart: seq<CartItem>, k: nat, product: Product, quantity: int)
    requires UniqueIds(cart) && k < |cart| && cart[k].product.id == product.id
    ensures AddLines(cart, product, quantity) == cart[k := cart[k].(quantity := cart[k].quantity + quantity)]
  {
    assert HasLine(cart, product.id);
    OnlyMatch(cart, k, product.id);
    var r := AddLines(cart, product, quantity);
    var e := cart[k := cart[k].(quantity := cart[k].quantity + quantity)];
    assert |r| == |e|;
    forall i | 0 <= i < |r| ensures r[i] == e[i] {
    }
  }

  /** Adding a product with no line appends one line at the end and keeps every other line. */
  lemma AddNewLine(cart: seq<CartItem>, product: Product, quantity: int)
    requires !HasLine(cart, product.id)
    ensures AddLines(cart, product, quantity) == cart + [CartItem(product, quantity)]
    ensures |AddLines(cart, product, quantity)| == |cart| + 1
  {
  }

  /** `addToCart` keeps "at most one line per product id", whatever the quantity. */
  lemma AddKeepsUniqueIds(cart: seq<CartItem>, product: Product, quantity: int)
    requires UniqueIds(cart)
    ensures UniqueIds(AddLines(cart, product, quantity))
  {
    var r := AddLines(cart, product, quantity);
    if HasLine(cart, product.id) {
      forall i, j | 0 <= i < j < |r| ensures r[i].product.id != r[j].product.id {
        assert r[i].product.id == cart[i].product.id && r[j].product.id == cart[j].product.id;
      }
    } else {
      forall i, j | 0 <= i < j < |r| ensures r[i].product.id != r[j].product.id {
        if j == |cart| {
          assert r[i] == cart[i];
        }
      }
    }
  }

  /** Adding q units of a product with no line raises the total by q times the product's price. */
  lemma AddNewTotal(cart: seq<CartItem>, product: Product, quantity: int)
    requires !HasLine(cart, product.id)
    ensures CartTotal(AddLines(cart, product, quantity)) == CartTotal(cart) + product.price * quantity as real
  {
    var line := CartItem(product, quantity);
    AddNewLine(cart, product, quantity);
    CartTotalAppend(cart, [line]);
    assert CartTotal([line]) == LineTotal(line) by {
      assert [line][..0] == [];
    }
  }

  /** Adding q units of a product that has line k raises the total by q times that line's unit price. */
  lemma AddExistingTotal(cart: seq<CartItem>, k: nat, product: Product, quantity: int)
    requires UniqueIds(cart) && k < |cart| && cart[k].product.id == product.id
    ensures Find(cart, product.id) == Some(cart[k])
    ensures CartTotal(AddLines(cart, product, quantity)) == CartTotal(cart) + cart[k].product.price * quantity as real
  {
    FindUnique(cart, k, product.id);
    AddToExistingLine(cart, k, product, quantity);
    BumpTotal(cart, k, quantity);
  }

  /** Raising one line's quantity by `quantity` raises the total by its unit price times `quantity`. */
  lemma BumpTotal(cart: seq<CartItem>, k: nat, quantity: int)
    requires k < |cart|
    ensures CartTotal(cart[k := cart[k].(quantity := cart[k].quantity + quantity)])
         == CartTotal(cart) + cart[k].product.price * quantity as real
  {
    var p, a, b := cart[k].product.price, cart[k].quantity as real, quantity as real;
    assert p * (a + b) == p * a + p * b;
    CartTotalReplace(cart, k, cart[k].(quantity := cart[k].quantity + quantity));
  }

  /** Under unique ids, `find` returns the one line for the id. */
  lemma FindUnique(cart: seq<CartItem>, k: nat, id: string)
    requires UniqueIds(cart) && k < |cart| && cart[k].product.id == id
    ensures Find(cart, id) == Some(cart[k])
  {
    assert HasLine(cart, id);
    var found := Find(cart, id).value;
    var j :| 0 <= j < |cart| && cart[j] == found;
    OnlyMatch(cart, k, id);
  }

  /** After `removeFromCart(id)` no line has that id, and every other line is still there. */
  lemma RemoveDropsOnlyId(cart: seq<CartItem>, id: string)
    ensures !HasLine(RemoveLines(cart, id), id)
    ensures forall item :: item in cart && item.product.id != id ==> item in RemoveLines(cart, id)
    ensures |RemoveLines(cart, id)| <= |cart|
  {
  }

  /** Under unique ids, removing an id that has a line deletes exactly that line, keeping the order of the rest. */
  lemma {:induction false} RemoveExistingLine(cart: seq<CartItem>, k: nat, id: string)
    requires UniqueIds(cart) && k < |cart| && cart[k].product.id == id
    ensures RemoveLines(cart, id) == cart[..k] + cart[k + 1..]
  {
    OnlyMatch(cart, k, id);
    var keep := (item: CartItem) => item.product.id != id;
    assert cart == cart[..k] + ([cart[k]] + cart[k + 1..]);
    Seqs.FilterAppend(cart[..k], [cart[k]] + cart[k + 1..], keep);
    Seqs.FilterAppend([cart[k]], cart[k + 1..], keep);
    Seqs.FilterKeepsAll(cart[..k], keep);
    Seqs.FilterKeepsAll(cart[k + 1..], keep);
    assert Seqs.Filter([cart[k]], keep) == [];
  }

  /** Removing an id that has no line leaves the cart exactly as it was. */
  lemma RemoveAbsentId(cart: seq<CartItem>, id: string)
    requires !HasLine(cart, id)
    ensures RemoveLines(cart, id) == cart
  {
    Seqs.FilterKeepsAll(cart, (item: CartItem) => item.product.id != id);
  }

  /** `removeFromCart` keeps "at most one line per product id". */
  lemma {:induction false} RemoveKeepsUniqueIds(cart: seq<CartItem>, id: string)
    requires UniqueIds(cart)
    ensures UniqueIds(RemoveLines(cart, id))
  {
    if cart != [] {
      var keep := (item: CartItem) => item.product.id != id;
      assert cart == [cart[0]] + cart[1..];
      RemoveKeepsUniqueIds(cart[1..], id);
      Seqs.FilterAppend([cart[0]], cart[1..], keep);
      var rest := RemoveLines(cart[1..], id);
      forall item | item in rest ensures item.product.id != cart[0].product.id {
        assert item in cart[1..];
      }
    }
  }

  /** `updateQuantity(id, q)` with `q <= 0` is exactly `removeFromCart(id)`. */
  lemma UpdateNonPositiveRemoves(cart: seq<CartItem>, id: string, quantity: int)
    requires quantity <= 0
    ensures UpdateLines(cart, id, quantity) == RemoveLines(cart, id)
  {
  }

  /** With `q > 0` and unique ids, only the matching line's quantity is overwritten. */
  lemma UpdatePositiveSetsLine(cart: seq<CartItem>, k: nat, id: string, quantity: int)
    requires quantity > 0 && UniqueIds(cart) && k < |cart| && cart[k].product.id == id
    ensures UpdateLines(cart, id, quantity) == cart[k := cart[k].(quantity := quantity)]
  {
    OnlyMatch(cart, k, id);
    var r := UpdateLines(cart, id, quantity);
    var e := cart[k := cart[k].(quantity := quantity)];
    assert |r| == |e|;
    forall i | 0 <= i < |r| ensures r[i] == e[i] {
    }
  }

  /** `updateQuantity` on an id with no line leaves the cart unchanged, whatever the quantity. */
  lemma UpdateAbsentId(cart: seq<CartItem>, id: string, quantity: int)
    requires !HasLine(cart, id)
    ensures UpdateLines(cart, id, quantity) == cart
  {
    if quantity <= 0 {
      RemoveAbsentId(cart, id);
    } else {
      var r := UpdateLines(cart, id, quantity);
      assert forall i :: 0 <= i < |r| ==> r[i] == cart[i];
    }
  }

  /** `updateQuantity` keeps "at most one line per product id". */
  lemma UpdateKeepsUniqueIds(cart: seq<CartItem>, id: string, quantity: int)
    requires UniqueIds(cart)
    ensures UniqueIds(UpdateLines(cart, id, quantity))
  {
    if quantity <= 0 {
      RemoveKeepsUniqueIds(cart, id);
    } else {
      var r := UpdateLines(cart, id, quantity);
      assert forall i :: 0 <= i < |r| ==> r[i].product.id == cart[i].product.id;
    }
  }

  /** Every line has a positive quantity, as the storefront's buttons keep it. */
  ghost predicate AllPositive(cart: seq<CartItem>)
  {
    forall i :: 0 <= i < |cart| ==> cart[i].quantity > 0
  }

  /** Adding a positive quantity keeps every line positive; `addToCart` itself does not check the sign. */
  lemma AddKeepsPositive(cart: seq<CartItem>, product: Product, quantity: int)
    requires AllPositive(cart) && quantity > 0
    ensures AllPositive(AddLines(cart, product, quantity))
  {
    var r := AddLines(cart, product, quantity);
    if !HasLine(cart, product.id) {
      assert forall i :: 0 <= i < |cart| ==> r[i] == cart[i];
    }
  }

  /** Whatever the requested quantity, `updateQuantity` leaves only positive lines behind. */
  lemma UpdateKeepsPositive(cart: seq<CartItem>, id: string, quantity: int)
    requires AllPositive(cart)
    ensures AllPositive(UpdateLines(cart, id, quantity))
  {
    if quantity <= 0 {
      var r := RemoveLines(cart, id);
      forall i | 0 <= i < |r| ensures r[i].quantity > 0 {
        assert r[i] in cart;
      }
    }
  }
}

=== FILE: cart_page.dfy ===
/**
 * The cart page: the checkout button's empty-cart guard, the +/- buttons on
 * each line and the order summary.
 */
module CartPage {
  import opened Types
  import AppContext

  datatype CheckoutOutcome = CartEmpty | CheckoutInitiated

  /** `handleCheckout`: an empty cart is refused; otherwise the (demo) checkout clears the cart. */
  method HandleCheckout(app: AppContext.AppState) returns (outcome: CheckoutOutcome)
    modifies app
    ensures old(app.cart) == [] ==> outcome == CartEmpty && app.cart == old(app.cart)
    ensures old(app.cart) != [] ==> outcome == CheckoutInitiated && app.cart == []
    ensures app.userType == old(app.userType)
  {
    if |app.cart| == 0 {
      return CartEmpty;
    }
    app.ClearCart();
    outcome := CheckoutInitiated;
  }

  /** The quantity the minus button asks `updateQuantity` for. */
  function MinusTarget(item: CartItem): int
  {
    item.quantity - 1
  }

  /** The quantity the plus button asks `updateQuantity` for. */
  function PlusTarget(item: CartItem): int
  {
    item.quantity + 1
  }

  /** The plus button is disabled once the quantity has reached the stock. */
  predicate PlusEnabled(item: CartItem)
  {
    !(item.quantity >= item.product.stock)
  }

  /** No line asks for more than its product's stock. */
  ghost predicate WithinStock(cart: seq<CartItem>)
  {
    forall i :: 0 <= i < |cart| ==> cart[i].quantity <= cart[i].product.stock
  }

  /** Pressing minus on a line of quantity 1 removes that line and keeps the others in order. */
  lemma MinusOnOneRemovesLine(cart: seq<CartItem>, k: nat)
    requires AppContext.UniqueIds(cart) && k < |cart| && cart[k].quantity == 1
    ensures AppContext.UpdateLines(cart, cart[k].product.id, MinusTarget(cart[k])) == cart[..k] + cart[k + 1..]
  {
    AppContext.RemoveExistingLine(cart, k, cart[k].product.id);
  }

  /** Pressing an enabled plus button never takes a line above its stock. */
  lemma PlusKeepsWithinStock(cart: seq<CartItem>, k: nat)
    requires AppContext.UniqueIds(cart) && k < |cart| && WithinStock(cart)
    requires PlusEnabled(cart[k])
    ensures WithinStock(AppContext.UpdateLines(cart, cart[k].product.id, PlusTarget(cart[k])))
  {
    var id := cart[k].product.id;
    if PlusTarget(cart[k]) <= 0 {
      var r := AppContext.RemoveLines(cart, id);
      forall i | 0 <= i < |r| ensures r[i].quantity <= r[i].product.stock {
        assert r[i] in cart;
      }
    } else {
      AppContext.UpdatePositiveSetsLine(cart, k, id, PlusTarget(cart[k]));
    }
  }

  /** Pressing minus never takes a line above its stock either. */
  lemma MinusKeepsWithinStock(cart: seq<CartItem>, k: nat)
    requires AppContext.UniqueIds(cart) && k < |cart| && WithinStock(cart)
    ensures WithinStock(AppContext.UpdateLines(cart, cart[k].product.id, MinusTarget(cart[k])))
  {
    var id := cart[k].product.id;
    if MinusTarget(cart[k]) <= 0 {
      var r := AppContext.RemoveLines(cart, id);
      forall i | 0 <= i < |r| ensures r[i].quantity <= r[i].product.stock {
        assert r[i] in cart;
      }
    } else {
      AppContext.UpdatePositiveSetsLine(cart, k, id, MinusTarget(cart[k]));
    }
  }

  /** The "Total" column: one `price * quantity` per line, in cart order. */
  function LineTotals(cart: seq<CartItem>): (r: seq<real>)
    ensures |r| == |cart|
    ensures forall i :: 0 <= i < |cart| ==> r[i] == AppContext.LineTotal(cart[i])
  {
    if cart == [] then [] else [AppContext.LineTotal(cart[0])] + LineTotals(cart[1..])
  }

  /** The sum of a column of amounts, added up from the front. */
  function Sum(xs: seq<real>): real
  {
    if xs == [] then 0.0 else xs[0] + Sum(xs[1..])
  }

  lemma {:induction false} SumSnoc(xs: seq<real>, x: real)
    ensures Sum(xs + [x]) == Sum(xs) + x
  {
    if xs == [] {
      assert [] + [x] == [x];
    } else {
      assert (xs + [x])[1..] == xs[1..] + [x];
      SumSnoc(xs[1..], x);
    }
  }

  /**
   * The summary's subtotal and total are both `cartTotal` (no shipping or tax
   * here), and that equals the sum of the line totals shown in the table.
   */
  lemma {:induction false} SummaryMatchesLineTotals(cart: seq<CartItem>)
    ensures AppContext.CartTotal(cart) == Sum(LineTotals(cart))
  {
    if cart != [] {
      var init := cart[..|cart| - 1];
      SummaryMatchesLineTotals(init);
      assert LineTotals(cart) == LineTotals(init) + [AppContext.LineTotal(cart[|cart| - 1])];
      SumSnoc(LineTotals(init), AppContext.LineTotal(cart[|cart| - 1]));
    }
  }
}

=== FILE: checkout.dfy ===
/**
 * The checkout page: the shipping form's required-field gate, the M-Pesa
 * phone and card validators, the payment branch and the order snapshot that
 * completes a purchase.  Timers between a valid payment and `completeOrder`
 * are collapsed: a payment that validates completes the order.
 */
module Checkout {
  import opened Types
  import Seqs
  import Text
  import AppContext

  /** Kenyan VAT, 16%. */
  const TaxRate: real := 0.16

  /** The flat shipping charge, in shillings. */
  const ShippingRate: real := 500.0

  datatype ShippingInfo = ShippingInfo(
    name: string, address: string, city: string, county: string,
    zip: string, email: string, phone: string)

  datatype ShippingField = NameField | AddressField | CityField | CountyField | ZipField | EmailField | PhoneField

  /** The required fields, in the order the missing ones are reported. */
  const RequiredFields: seq<ShippingField> :=
    [NameField, AddressField, CityField, CountyField, ZipField, EmailField, PhoneField]

  function FieldValue(info: ShippingInfo, f: ShippingField): string
  {
    match f
    case NameField => info.name
    case AddressField => info.address
    case CityField => info.city
    case CountyField => info.county
    case ZipField => info.zip
    case EmailField => info.email
    case PhoneField => info.phone
  }

  /** The key each field has in the form, as the error message lists it. */
  function FieldKey(f: ShippingField): string
  {
    match f
    case NameField => "name"
    case AddressField => "address"
    case CityField => "city"
    case CountyField => "county"
    case ZipField => "zip"
    case EmailField => "email"
    case PhoneField => "phone"
  }

  /** The required fields left empty, in form order. */
  function MissingFields(info: ShippingInfo): seq<ShippingField>
  {
    Seqs.Filter(RequiredFields, (f: ShippingField) => FieldValue(info, f) == "")
  }

  /** A field is reported missing iff it is empty. */
  lemma MissingFieldReported(info: ShippingInfo, f: ShippingField)
    ensures f in MissingFields(info) <==> FieldValue(info, f) == ""
  {
    assert f in RequiredFields by {
      match f
      case NameField => assert RequiredFields[0] == f;
      case AddressField => assert RequiredFields[1] == f;
      case CityField => assert RequiredFields[2] == f;
      case CountyField => assert RequiredFields[3] == f;
      case ZipField => assert RequiredFields[4] == f;
      case EmailField => assert RequiredFields[5] == f;
      case PhoneField => assert RequiredFields[6] == f;
    }
  }

  /** Nothing is missing exactly when all seven fields are filled in. */
  lemma NothingMissingIff(info: ShippingInfo)
    ensures MissingFields(info) == [] <==>
      info.name != "" && info.address != "" && info.city != "" && info.county != ""
      && info.zip != "" && info.email != "" && info.phone != ""
  {
    var missing := MissingFields(info);
    if missing != [] {
      assert missing[0] in missing;
      MissingFieldReported(info, missing[0]);
    } else {
      MissingFieldReported(info, NameField);
      MissingFieldReported(info, AddressField);
      MissingFieldReported(info, CityField);
      MissingFieldReported(info, CountyField);
      MissingFieldReported(info, ZipField);
      MissingFieldReported(info, EmailField);
      MissingFieldReported(info, PhoneField);
    }
  }

  /** The number part of an M-Pesa phone: `7` and then eight more digits. */
  predicate MpesaBody(s: string)
  {
    |s| == 9 && s[0] == '7' && Text.AllDigits(s)
  }

  /** The prefixes the phone pattern allows before the number part: none, `0`, `254` or `+254`. */
  const MpesaPrefixes: seq<string> := ["", "0", "254", "+254"]

  /** `validateMpesaPhone`: the pattern `^(?:254|\+254|0)?(7[0-9]{8})$`, tried prefix by prefix. */
  function ValidMpesaPhone(phone: string): bool
  {
    || MpesaBody(phone)
    || ("254" <= phone && MpesaBody(phone[3..]))
    || ("+254" <= phone && MpesaBody(phone[4..]))
    || ("0" <= phone && MpesaBody(phone[1..]))
  }

  /** Every allowed prefix followed by a number part is accepted. */
  lemma MpesaPhoneComplete(prefix: string, body: string)
    requires prefix in MpesaPrefixes && MpesaBody(body)
    ensures ValidMpesaPhone(prefix + body)
  {
    var p := prefix + body;
    assert p[|prefix|..] == body;
    assert prefix <= p;
  }

  /** Every accepted phone is an allowed prefix followed by a number part, so it has 9, 10, 12 or 13 characters. */
  lemma MpesaPhoneSound(phone: string)
    requires ValidMpesaPhone(phone)
    ensures exists prefix :: prefix in MpesaPrefixes && prefix <= phone && MpesaBody(phone[|prefix|..])
    ensures |phone| == 9 || |phone| == 10 || |phone| == 12 || |phone| == 13
  {
    if MpesaBody(phone) {
      assert "" in MpesaPrefixes && phone[|""|..] == phone;
    } else if "254" <= phone && MpesaBody(phone[3..]) {
      assert "254" in MpesaPrefixes;
    } else if "+254" <= phone && MpesaBody(phone[4..]) {
      assert "+254" in MpesaPrefixes;
    } else {
      assert "0" in MpesaPrefixes;
    }
  }

  lemma MpesaPhoneExamples()
    ensures ValidMpesaPhone("0712345678")
    ensures ValidMpesaPhone("+254712345678")
    ensures ValidMpesaPhone("254712345678")
    ensures ValidMpesaPhone("712345678")
    ensures !ValidMpesaPhone("123")
    ensures !ValidMpesaPhone("0812345678")
  {
    assert "0712345678"[1..] == "712345678";
    assert "+254712345678"[4..] == "712345678";
    assert "254712345678"[3..] == "712345678";
    var wrongNetwork := "0812345678";
    assert wrongNetwork[1..][0] == '8';
    assert !("254" <= wrongNetwork) by { assert "254"[0] != wrongNetwork[0]; }
    assert !("+254" <= wrongNetwork) by { assert "+254"[0] != wrongNetwork[0]; }
    var short := "123";
    assert !("254" <= short) by { assert "254"[0] != short[0]; }
    assert !("+254" <= short) by { assert "+254"[0] != short[0]; }
  }

  datatype CardDetails = CardDetails(number: string, name: string, expiry: string, cvc: string)

  /** Why a card was refused, or that it passed. */
  datatype CardVerdict = CardAccepted | InvalidCardNumber | MissingCardName | InvalidExpiry | InvalidCvc

  /** The expiry pattern `^\d{2}\/\d{2}$`: two digits, a slash, two digits; the month is not range-checked. */
  predicate ExpiryPattern(s: string)
  {
    |s| == 5 && Text.IsDigit(s[0]) && Text.IsDigit(s[1]) && s[2] == '/' && Text.IsDigit(s[3]) && Text.IsDigit(s[4])
  }

  /** `validateCardDetails`: four checks in order; the first that fails is the one reported. */
  function ValidateCard(card: CardDetails): (r: CardVerdict)
    ensures r == CardAccepted <==>
      |card.number| >= 16 && card.name != "" && ExpiryPattern(card.expiry) && |card.cvc| >= 3
    ensures r == InvalidCardNumber <==> |card.number| < 16
    ensures r == MissingCardName <==> |card.number| >= 16 && card.name == ""
    ensures r == InvalidExpiry <==> |card.number| >= 16 && card.name != "" && !ExpiryPattern(card.expiry)
    ensures r == InvalidCvc <==>
      |card.number| >= 16 && card.name != "" && ExpiryPattern(card.expiry) && |card.cvc| < 3
  {
    if card.number == "" || |card.number| < 16 then InvalidCardNumber
    else if card.name == "" then MissingCardName
    else if card.expiry == "" || !ExpiryPattern(card.expiry) then InvalidExpiry
    else if card.cvc == "" || |card.cvc| < 3 then InvalidCvc
    else CardAccepted
  }

  lemma ExpiryExamples()
    ensures ExpiryPattern("12/27") && ExpiryPattern("99/00")
    ensures !ExpiryPattern("1/27") && !ExpiryPattern("12-27") && !ExpiryPattern("12/2027")
  {
  }

  /** What pressing "Complete Order" leads to. */
  datatype Decision =
    | MissingInformation(fields: seq<ShippingField>)
    | InvalidPhone
    | CardRejected(reason: CardVerdict)
    | PaymentAccepted(paymentMethod: PaymentMethod)

  /** `handleShippingSubmit` then `processPayment`, as a decision on the page's inputs. */
  function Decide(info: ShippingInfo, paymentMethod: PaymentMethod, mpesaPhone: string, card: CardDetails): Decision
  {
    if MissingFields(info) != [] then MissingInformation(MissingFields(info))
    else match paymentMethod
      case Mpesa => if ValidMpesaPhone(mpesaPhone) then PaymentAccepted(Mpesa) else InvalidPhone
      case Card => if ValidateCard(card) == CardAccepted then PaymentAccepted(Card) else CardRejected(ValidateCard(card))
  }

  /** A payment goes ahead exactly when the form is complete and the chosen method's input is valid. */
  lemma DecideAcceptsIff(info: ShippingInfo, paymentMethod: PaymentMethod, mpesaPhone: string, card: CardDetails)
    ensures Decide(info, paymentMethod, mpesaPhone, card).PaymentAccepted? <==>
      && MissingFields(info) == []
      && (paymentMethod == Mpesa ==> ValidMpesaPhone(mpesaPhone))
      && (paymentMethod == Card ==> ValidateCard(card) == CardAccepted)
    ensures Decide(info, paymentMethod, mpesaPhone, card).PaymentAccepted? ==>
      Decide(info, paymentMethod, mpesaPhone, card).paymentMethod == paymentMethod
  {
  }

  /** `subtotal + subtotal * taxRate + shippingRate`. */
  function OrderTotal(subtotal: real): real
  {
    subtotal + subtotal * TaxRate + ShippingRate
  }

  /** The total is 116% of the subtotal plus 500, so it grows with the subtotal; 1000 gives 1660. */
  lemma OrderTotalFacts(subtotal: real, other: real)
    ensures OrderTotal(subtotal) == 1.16 * subtotal + 500.0
    ensures subtotal <= other ==> OrderTotal(subtotal) <= OrderTotal(other)
    ensures OrderTotal(1000.0) == 1660.0
    ensures OrderTotal(0.0) == ShippingRate
  {
  }

  /** One cart line as an order item. */
  function Snapshot(item: CartItem): OrderItem
  {
    OrderItem(item.product.id, item.product.name, item.quantity, item.product.price)
  }

  /** `cart.map(...)`: each cart line copied as (product id, product name, quantity, unit price). */
  function SnapshotItems(cart: seq<CartItem>): (r: seq<OrderItem>)
    ensures |r| == |cart|
    ensures forall i :: 0 <= i < |cart| ==>
      r[i] == OrderItem(cart[i].product.id, cart[i].product.name, cart[i].quantity, cart[i].product.price)
  {
    if cart == [] then [] else [Snapshot(cart[0])] + SnapshotItems(cart[1..])
  }

  /** The order's own subtotal: the left-to-right sum of `price * quantity` over its items. */
  function ItemsSubtotal(items: seq<OrderItem>): real
  {
    if items == [] then 0.0
    else ItemsSubtotal(items[..|items| - 1]) + items[|items| - 1].price * items[|items| - 1].quantity as real
  }

  /** The snapshot's items add up to exactly the cart total it was taken from. */
  lemma {:induction false} SnapshotKeepsSubtotal(cart: seq<CartItem>)
    ensures ItemsSubtotal(SnapshotItems(cart)) == AppContext.CartTotal(cart)
  {
    if cart != [] {
      var init := cart[..|cart| - 1];
      SnapshotKeepsSubtotal(init);
      var items := SnapshotItems(cart);
      assert items[..|items| - 1] == SnapshotItems(init);
    }
  }

  /**
   * The values the source draws from `Math.random` and the clock when it
   * builds an order; the clock is read twice, once per timestamp, and the two
   * readings may differ.
   */
  datatype OrderStamp = OrderStamp(orderNumber: nat, customerNumber: nat, transactionNumber: nat,
                                   createdAt: int, updatedAt: int)

  /** The order object `completeOrder` builds; it reads `cart[0]` for the seller. */
  function BuildOrder(info: ShippingInfo, cart: seq<CartItem>, paymentMethod: PaymentMethod, stamp: OrderStamp): Order
    requires |cart| > 0
  {
    Order(
      "ORD-" + Text.NatToString(stamp.orderNumber),
      "CUST-" + Text.NatToString(stamp.customerNumber),
      info.name, info.email, info.phone,
      ShippingAddress(info.address, info.city, info.county, info.zip),
      SnapshotItems(cart),
      OrderTotal(AppContext.CartTotal(cart)),
      Pending,
      Payment(paymentMethod, PaymentCompleted, "TXN-" + Text.NatToString(stamp.transactionNumber)),
      cart[0].product.sellerId,
      stamp.createdAt,
      stamp.updatedAt)
  }

  /**
   * A built order is pending with a completed payment by the chosen method,
   * lists the cart lines one for one, and charges the tax and shipping on
   * exactly the sum of its own items.
   */
  lemma BuildOrderFacts(info: ShippingInfo, cart: seq<CartItem>, paymentMethod: PaymentMethod, stamp: OrderStamp)
    requires |cart| > 0
    ensures var o := BuildOrder(info, cart, paymentMethod, stamp);
      && o.status == Pending
      && o.payment.status == PaymentCompleted && o.payment.paymentMethod == paymentMethod
      && |o.items| == |cart|
      && (forall i :: 0 <= i < |cart| ==> o.items[i].productId == cart[i].product.id && o.items[i].quantity == cart[i].quantity)
      && o.totalAmount == OrderTotal(ItemsSubtotal(o.items))
      && o.sellerId == cart[0].product.sellerId
      && o.createdAt == stamp.createdAt && o.updatedAt == stamp.updatedAt
      && o.customerName == info.name && o.customerEmail == info.email && o.customerPhone == info.phone
      && o.shippingAddress == ShippingAddress(info.address, info.city, info.county, info.zip)
      && o.items == SnapshotItems(cart)
  {
    SnapshotKeepsSubtotal(cart);
  }

  /** What one press of "Complete Order" did. */
  datatype SubmitOutcome =
    | Refused(decision: Decision)
    | OrderPlaced(order: Order, handedToStore: bool)

  /** The page's state; it is rendered only while the cart has a line. */
  class CheckoutPage {
    var shippingInfo: ShippingInfo
    var paymentMethod: PaymentMethod
    var mpesaPhone: string
    var cardDetails: CardDetails
    var isProcessing: bool

    constructor ()
      ensures shippingInfo == ShippingInfo("", "", "", "", "", "", "")
      ensures paymentMethod == Mpesa && mpesaPhone == "" && cardDetails == CardDetails("", "", "", "")
      ensures !isProcessing
    {
      shippingInfo := ShippingInfo("", "", "", "", "", "", "");
      paymentMethod := Mpesa;
      mpesaPhone := "";
      cardDetails := CardDetails("", "", "", "");
      isProcessing := false;
    }

    /**
     * `processPayment`: marks the page as processing, then either drops the
     * flag again on invalid input or lets the payment go ahead.
     */
    method ProcessPayment() returns (d: Decision)
      requires MissingFields(shippingInfo) == []
      modifies this
      ensures d == Decide(shippingInfo, paymentMethod, mpesaPhone, cardDetails)
      ensures isProcessing <==> d.PaymentAccepted?
      ensures shippingInfo == old(shippingInfo) && paymentMethod == old(paymentMethod)
      ensures mpesaPhone == old(mpesaPhone) && cardDetails == old(cardDetails)
    {
      isProcessing := true;
      match paymentMethod {
        case Mpesa =>
          if !ValidMpesaPhone(mpesaPhone) {
            isProcessing := false;
            return InvalidPhone;
          }
          d := PaymentAccepted(Mpesa);
        case Card =>
          var verdict := ValidateCard(cardDetails);
          if verdict != CardAccepted {
            isProcessing := false;
            return CardRejected(verdict);
          }
          d := PaymentAccepted(Card);
      }
    }

    /**
     * `completeOrder`: builds the order from the cart, clears the cart and
     * ends processing. The hand-over to the order store, when the context
     * provides one, is part of `HandleShippingSubmit`'s outcome.
     */
    method CompleteOrder(app: AppContext.AppState, paymentMethod: PaymentMethod, stamp: OrderStamp) returns (order: Order)
      requires |app.cart| > 0
      modifies this, app
      ensures order == BuildOrder(shippingInfo, old(app.cart), paymentMethod, stamp)
      ensures app.cart == [] && app.userType == old(app.userType)
      ensures !isProcessing
      ensures shippingInfo == old(shippingInfo) && this.paymentMethod == old(this.paymentMethod)
      ensures mpesaPhone == old(mpesaPhone) && cardDetails == old(cardDetails)
    {
      order := BuildOrder(shippingInfo, app.cart, paymentMethod, stamp);
      app.ClearCart();
      isProcessing := false;
    }

    /**
     * `handleShippingSubmit`: a form with an empty required field is refused
     * and nothing else happens; otherwise the payment is processed, and a
     * valid payment completes the order.
     */
    method HandleShippingSubmit(app: AppContext.AppState, stamp: OrderStamp, hasOrderStore: bool)
      returns (outcome: SubmitOutcome)
      requires |app.cart| > 0
      modifies this, app
      ensures var d := Decide(old(shippingInfo), old(paymentMethod), old(mpesaPhone), old(cardDetails));
        && (d.PaymentAccepted? ==>
              outcome == OrderPlaced(BuildOrder(old(shippingInfo), old(app.cart), d.paymentMethod, stamp), hasOrderStore)
              && app.cart == [])
        && (!d.PaymentAccepted? ==> outcome == Refused(d) && app.cart == old(app.cart))
      ensures outcome.Refused? && outcome.decision.MissingInformation? ==> isProcessing == old(isProcessing)
      ensures outcome.Refused? && !outcome.decision.MissingInformation? ==> !isProcessing
      ensures outcome.OrderPlaced? ==> !isProcessing
      ensures app.userType == old(app.userType)
      ensures shippingInfo == old(shippingInfo) && paymentMethod == old(paymentMethod)
    {
      var missing := MissingFields(shippingInfo);
      if |missing| > 0 {
        return Refused(MissingInformation(missing));
      }
      var d := ProcessPayment();
      if !d.PaymentAccepted? {
        return Refused(d);
      }
      var order := CompleteOrder(app, d.paymentMethod, stamp);
      outcome := OrderPlaced(order, hasOrderStore);
    }
  }
}

=== FILE: login.dfy ===
/**
 * The login page: a role tab, an email/password gate, and the redirect that
 * follows a successful login.  Credentials are not checked against anything.
 */
module Login {
  import opened Types
  import AppContext
  import Navbar

  /** The two tabs. */
  datatype Role = CustomerRole | SellerRole

  function UserTypeOf(role: Role): (r: UserType)
    ensures r != GuestUser
    ensures r == SellerUser <==> role == SellerRole
  {
    match role
    case CustomerRole => CustomerUser
    case SellerRole => SellerUser
  }

  /** Where a successful login goes. */
  function RedirectFor(role: Role): (r: string)
    ensures r == "/seller/dashboard" <==> role == SellerRole
    ensures r == "/products" <==> role == CustomerRole
  {
    var seller := "/seller/dashboard";
    var shopper := "/products";
    assert seller[1] != shopper[1];
    match role
    case SellerRole => seller
    case CustomerRole => shopper
  }

  /** After a successful login the navbar never offers the login link again, and it leads a seller to the dashboard. */
  lemma LoggedInNavbar(role: Role)
    ensures Navbar.AccountLink(UserTypeOf(role)).path != "/login"
    ensures Navbar.AccountLink(UserTypeOf(role)).path == "/dashboard" <==> role == SellerRole
  {
  }

  class LoginPage {
    var email: string
    var password: string
    var role: Role

    constructor ()
      ensures email == "" && password == "" && role == CustomerRole
    {
      email := "";
      password := "";
      role := CustomerRole;
    }

    /** The tabs' `onValueChange`. */
    method SelectTab(r: Role)
      modifies this
      ensures role == r && email == old(email) && password == old(password)
    {
      role := r;
    }

    method SetCredentials(e: string, p: string)
      modifies this
      ensures email == e && password == p && role == old(role)
    {
      email := e;
      password := p;
    }

    /**
     * `handleLogin`: with both fields filled the context's user type becomes
     * the selected role and the page navigates; otherwise nothing changes.
     */
    method HandleLogin(app: AppContext.AppState) returns (redirect: Option<string>)
      modifies app
      ensures redirect.Some? <==> email != "" && password != ""
      ensures redirect.Some? ==> app.userType == UserTypeOf(role) && redirect.value == RedirectFor(role)
      ensures redirect.None? ==> app.userType == old(app.userType)
      ensures app.cart == old(app.cart)
    {
      if email != "" && password != "" {
        app.SetUserType(UserTypeOf(role));
        return Some(RedirectFor(role));
      }
      return None;
    }
  }
}

=== FILE: marketing.dfy ===
/**
 * The marketing automation page: a premium-only screen whose two counters
 * (active and paused workflows) move when a workflow's button is pressed.
 */
module Marketing {
  import opened Types

  /** Non-premium sellers are sent to the subscription page. */
  datatype MarketingView = RedirectTo(path: string) | WorkflowsScreen

  function PageFor(tier: SubscriptionTier): (r: MarketingView)
    ensures r.WorkflowsScreen? <==> tier == Premium
    ensures r.RedirectTo? ==> r.path == "/subscription"
  {
    if tier != Premium then RedirectTo("/subscription") else WorkflowsScreen
  }

  datatype WorkflowStatus = Active | Paused

  function Flip(s: WorkflowStatus): WorkflowStatus
  {
    if s == Active then Paused else Active
  }

  /** The counters shown on the page. */
  datatype Counts = Counts(active: int, paused: int)

  const InitialCounts := Counts(3, 2)

  /** `toggleWorkflowStatus` on the counters, given the status the button passes. */
  function ToggleCounts(c: Counts, current: WorkflowStatus): (r: Counts)
    ensures r.active + r.paused == c.active + c.paused
    ensures current == Active ==> r.active == c.active - 1 && r.paused == c.paused + 1
    ensures current == Paused ==> r.active == c.active + 1 && r.paused == c.paused - 1
  {
    if current == Active then Counts(c.active - 1, c.paused + 1) else Counts(c.active + 1, c.paused - 1)
  }

  /** The sample workflows' statuses, which the page never changes: three active, two paused. */
  function SampleStatuses(): seq<WorkflowStatus>
  {
    [Active, Active, Active, Paused, Paused]
  }

  /**
   * As written, the button of a workflow always passes its fixed sample
   * status, so pressing "Activate" on workflow 4 three times takes the
   * paused counter from 2 to -1 (and active to 6, above the five workflows).
   */
  lemma StaleStatusDrivesCountNegative()
    ensures var s := SampleStatuses()[3];
      var c := ToggleCounts(ToggleCounts(ToggleCounts(InitialCounts, s), s), s);
      c.paused == -1 && c.active == 6
  {
  }

  /** How many workflows have a status. */
  function CountStatus(board: seq<WorkflowStatus>, s: WorkflowStatus): (r: nat)
    ensures r <= |board|
  {
    if board == [] then 0 else CountStatus(board[..|board| - 1], s) + (if board[|board| - 1] == s then 1 else 0)
  }

  /** The counters a board of statuses should show. */
  function CountsOf(board: seq<WorkflowStatus>): Counts
  {
    Counts(CountStatus(board, Active), CountStatus(board, Paused))
  }

  /** The two counters of a board add up to its size. */
  lemma {:induction false} CountsCoverBoard(board: seq<WorkflowStatus>)
    ensures CountStatus(board, Active) + CountStatus(board, Paused) == |board|
  {
    if board != [] {
      CountsCoverBoard(board[..|board| - 1]);
    }
  }

  /** Counting after one entry changed: the old status loses one, the new one gains one. */
  lemma {:induction false} CountAfterUpdate(board: seq<WorkflowStatus>, k: nat, v: WorkflowStatus, s: WorkflowStatus)
    requires k < |board|
    ensures CountStatus(board[k := v], s) == CountStatus(board, s) - (if board[k] == s then 1 else 0) + (if v == s then 1 else 0)
  {
    var n := |board| - 1;
    if k < n {
      assert board[k := v][..n] == board[..n][k := v];
      CountAfterUpdate(board[..n], k, v, s);
    } else {
      assert board[k := v][..n] == board[..n];
    }
  }

  /** The counters start where the page starts them. */
  lemma SampleCountsAreInitial()
    ensures CountsOf(SampleStatuses()) == InitialCounts
  {
    var b := SampleStatuses();
    assert b[..4] == [Active, Active, Active, Paused];
    assert b[..4][..3] == [Active, Active, Active];
    assert b[..4][..3][..2] == [Active, Active];
    assert b[..4][..3][..2][..1] == [Active];
    assert CountsOf([Active]) == Counts(1, 0);
    assert CountsOf([Active, Active]) == Counts(2, 0);
    assert CountsOf([Active, Active, Active]) == Counts(3, 0);
    assert CountsOf([Active, Active, Active, Paused]) == Counts(3, 1);
  }

  /**
   * Toggling a workflow whose status is the one its button shows: the board
   * flips that workflow, and the counters move exactly as the page moves them.
   */
  lemma ToggleAgreesWithCounters(board: seq<WorkflowStatus>, k: nat)
    requires k < |board|
    ensures CountsOf(board[k := Flip(board[k])]) == ToggleCounts(CountsOf(board), board[k])
  {
    CountAfterUpdate(board, k, Flip(board[k]), Active);
    CountAfterUpdate(board, k, Flip(board[k]), Paused);
  }

  /**
   * The page with each workflow's status kept as state: a toggle flips the
   * pressed workflow and moves the counters by the status it now has, so the
   * counters always equal the board's counts and never go negative.
   */
  class WorkflowBoard {
    var statuses: seq<WorkflowStatus>
    var counts: Counts

    ghost predicate Valid()
      reads this
    {
      counts == CountsOf(statuses)
    }

    constructor ()
      ensures Valid()
      ensures statuses == SampleStatuses() && counts == InitialCounts
    {
      statuses := SampleStatuses();
      counts := InitialCounts;
      SampleCountsAreInitial();
    }

    /** The corrected `toggleWorkflowStatus` for the workflow at index `k`. */
    method ToggleWorkflowStatus(k: nat)
      requires Valid() && k < |statuses|
      modifies this
      ensures Valid()
      ensures statuses == old(statuses)[k := Flip(old(statuses)[k])]
      ensures counts == ToggleCounts(old(counts), old(statuses)[k])
      ensures counts.active >= 0 && counts.paused >= 0 && counts.active + counts.paused == |statuses|
    {
      ToggleAgreesWithCounters(statuses, k);
      counts := ToggleCounts(counts, statuses[k]);
      statuses := statuses[k := Flip(statuses[k])];
      CountsCoverBoard(statuses);
    }
  }
}

=== FILE: mock_data.dfy ===
/**
 * The constant tables the storefront ships with: subscription tiers, the
 * seeded sellers and products, and the label/icon lookups.
 */
module MockData {
  import opened Types
  import Text

  /** A row of the subscription table; a product limit of -1 means unlimited. */
  datatype TierInfo = TierInfo(id: SubscriptionTier, name: string, price: real, productLimit: int, features: seq<string>)

  const UnlimitedSentinel: int := -1

  function SubscriptionTiers(): seq<TierInfo>
  {
    [ TierInfo(Basic, "Basic", 0.0, 10,
               ["List up to 10 products", "Basic product pages", "Standard search visibility"]),
      TierInfo(Standard, "Standard", 29.99, 50,
               ["List up to 50 products", "Enhanced product pages", "Priority search visibility",
                "Basic analytics", "Promotional features"]),
      TierInfo(Premium, "Premium", 99.99, UnlimitedSentinel,
               ["Unlimited product listings", "Premium product pages", "Top search visibility",
                "Advanced analytics", "Marketing support", "Featured seller status",
                "Early access to new features"]) ]
  }

  /** The table row of a tier, found by its id. */
  function TierRow(tier: SubscriptionTier): (r: TierInfo)
    ensures r in SubscriptionTiers() && r.id == tier
  {
    match tier
    case Basic => SubscriptionTiers()[0]
    case Standard => SubscriptionTiers()[1]
    case Premium => SubscriptionTiers()[2]
  }

  /** The tier table lists every tier exactly once, and its limits are 10, 50 and unlimited. */
  lemma TierTableShape()
    ensures |SubscriptionTiers()| == 3
    ensures forall i, j :: 0 <= i < j < 3 ==> SubscriptionTiers()[i].id != SubscriptionTiers()[j].id
    ensures TierRow(Basic).productLimit == 10
    ensures TierRow(Standard).productLimit == 50
    ensures TierRow(Premium).productLimit == UnlimitedSentinel
    ensures forall t :: TierRow(t).productLimit == UnlimitedSentinel <==> t == Premium
  {
  }

  /** The `i`-th text of a description table, or "" past its end. */
  function DescriptionAt(descriptions: seq<string>, i: nat): string
  {
    if i < |descriptions| then descriptions[i] else ""
  }

  /** The description texts of the seeded sellers, in listing order. */
  const SellerDescriptions: seq<string> :=
    [ "Organic farm fresh produce directly from our fields to your table.",
      "Freshly baked goods using traditional recipes and organic ingredients.",
      "Unique handmade crafts and home goods made with love.",
      "Premium dairy products from grass-fed cows, no additives." ]

  /**
   * The seeded seller records around a table of description texts; every
   * other field is the literal value of the seed list.
   */
  function SellerRows(descriptions: seq<string>): seq<Seller>
  {
    [ Seller("s1", "Green Valley Farm", DescriptionAt(descriptions, 0),
             Some(PlaceholderImage), Premium, 24, "Riverside County", 4.8),
      Seller("s2", "Artisan Bakery", DescriptionAt(descriptions, 1),
             Some(PlaceholderImage), Standard, 16, "Downtown", 4.9),
      Seller("s3", "Homemade Craft Co.", DescriptionAt(descriptions, 2),
             Some(PlaceholderImage), Basic, 8, "Eastside", 4.7),
      Seller("s4", "Fresh Dairy Farm", DescriptionAt(descriptions, 3),
             Some(PlaceholderImage), Standard, 12, "Northern Valley", 4.6) ]
  }

  /** `SELLERS`. */
  function Sellers(): seq<Seller>
  {
    SellerRows(SellerDescriptions)
  }

  /** The description texts of the seeded products, in listing order. */
  const ProductDescriptions: seq<string> :=
    [ "Fresh organic carrots harvested this morning. Perfect for salads or cooking.",
      "Traditional sourdough bread made with our 100-year-old starter.",
      "Unique handmade ceramic mug, perfect for your morning coffee.",
      "Fresh organic kale, full of vitamins and nutrients.",
      "Unfiltered, pure raw honey from our local bee farm.",
      "Traditional handwoven basket made with sustainable materials.",
      "Sweet, juicy strawberries picked at peak ripeness.",
      "Fresh organic whole milk from grass-fed cows.",
      "Small-batch jam made with seasonal fruits and berries.",
      "Handcrafted macramé plant hanger, perfect for your indoor plants.",
      "Sweet and juicy cherry tomatoes, great for salads.",
      "Aged artisan cheese made with traditional methods." ]

  /**
   * The seeded product records around a table of description texts; every
   * other field is the literal value of the seed list.
   */
  function ProductRows(descriptions: seq<string>): seq<Product>
  {
    [ Product("p1", "Organic Carrots Bundle", DescriptionAt(descriptions, 0),
              3.99, PlaceholderImage, Farm, "s1", 50, Both),
      Product("p2", "Sourdough Bread", DescriptionAt(descriptions, 1),
              6.49, PlaceholderImage, Groceries, "s2", 15, Both),
      Product("p3", "Handcrafted Ceramic Mug", DescriptionAt(descriptions, 2),
              24.99, PlaceholderImage, Handmade, "s3", 8, Pickup),
      Product("p4", "Organic Kale Bunch", DescriptionAt(descriptions, 3),
              4.99, PlaceholderImage, Farm, "s1", 30, Delivery),
      Product("p5", "Raw Honey Jar", DescriptionAt(descriptions, 4),
              8.99, PlaceholderImage, Groceries, "s4", 25, Both),
      Product("p6", "Handwoven Basket", DescriptionAt(descriptions, 5),
              34.99, PlaceholderImage, Handmade, "s3", 5, Both),
      Product("p7", "Fresh Strawberries Box", DescriptionAt(descriptions, 6),
              5.99, PlaceholderImage, Farm, "s1", 20, Delivery),
      Product("p8", "Organic Milk Bottle", DescriptionAt(descriptions, 7),
              4.49, PlaceholderImage, Groceries, "s4", 18, Both),
      Product("p9", "Homemade Jam", DescriptionAt(descriptions, 8),
              7.99, PlaceholderImage, Groceries, "s2", 12, Both),
      Product("p10", "Macramé Plant Hanger", DescriptionAt(descriptions, 9),
              29.99, PlaceholderImage, Handmade, "s3", 7, Pickup),
      Product("p11", "Fresh Cherry Tomatoes", DescriptionAt(descriptions, 10),
              4.49, PlaceholderImage, Farm, "s1", 40, Delivery),
      Product("p12", "Artisan Cheese Wheel", DescriptionAt(descriptions, 11),
              12.99, PlaceholderImage, Groceries, "s4", 10, Both) ]
  }

  /** `PRODUCTS`. */
  function Products(): seq<Product>
  {
    ProductRows(ProductDescriptions)
  }

  /** Whether some seller of the list has this id. */
  predicate ListsSeller(sellers: seq<Seller>, id: string)
  {
    exists i :: 0 <= i < |sellers| && sellers[i].id == id
  }

  /*
   * The seed invariants below are stated for the seed records around ANY
   * description texts, so they hold of `Products()` and `Sellers()` in
   * particular, which are those records around the shipped texts.
   */

  /** The shipped product descriptions: one per seeded product, each at least 10 characters long. */
  lemma ProductDescriptionsLongEnough()
    ensures |ProductDescriptions| == 12
    ensures forall i :: 0 <= i < |ProductDescriptions| ==> |ProductDescriptions[i]| >= 10
  {
  }

  /** The ids the seeded products are listed under, in order. */
  const SeedIds: seq<string> := ["p1", "p2", "p3", "p4", "p5", "p6", "p7", "p8", "p9", "p10", "p11", "p12"]

  lemma SeedIdsListed(descriptions: seq<string>)
    ensures |ProductRows(descriptions)| == |SeedIds|
    ensures forall i :: 0 <= i < |SeedIds| ==> ProductRows(descriptions)[i].id == SeedIds[i]
  {
  }

  lemma SeedIdsRendered()
    ensures forall i :: 0 <= i < |SeedIds| ==> SeedIds[i] == "p" + Text.NatToString(i + 1)
  {
    forall i | 0 <= i < |SeedIds| ensures SeedIds[i] == "p" + Text.NatToString(i + 1) {
      if i < 9 {
        assert Text.NatToString(i + 1) == [Text.DigitChar(i + 1)];
      } else {
        assert Text.NatToString(i + 1) == ['1', Text.DigitChar(i - 9)];
      }
    }
  }

  /** The seeded product ids are "p1" to "p12", in order. */
  lemma SeedProductIdsNumbered(descriptions: seq<string>)
    ensures |ProductRows(descriptions)| == 12
    ensures forall i :: 0 <= i < |ProductRows(descriptions)| ==>
      ProductRows(descriptions)[i].id == "p" + Text.NatToString(i + 1)
  {
    SeedIdsListed(descriptions);
    SeedIdsRendered();
  }

  /** No two seeded products share an id. */
  lemma SeedProductIdsUnique(descriptions: seq<string>)
    ensures forall i, j :: 0 <= i < j < |ProductRows(descriptions)| ==>
      ProductRows(descriptions)[i].id != ProductRows(descriptions)[j].id
  {
    var ps := ProductRows(descriptions);
    SeedProductIdsNumbered(descriptions);
    forall i, j | 0 <= i < j < |ps| ensures ps[i].id != ps[j].id {
      var a := Text.NatToString(i + 1);
      var b := Text.NatToString(j + 1);
      if a == b {
        Text.NatToStringInjective(i + 1, j + 1);
      } else {
        assert ("p" + a)[1..] == a && ("p" + b)[1..] == b;
      }
    }
  }

  /** Every seeded product has a positive price and a stock that is not negative. */
  lemma SeedProductsPricedAndStocked(descriptions: seq<string>)
    ensures forall i :: 0 <= i < |ProductRows(descriptions)| ==>
      ProductRows(descriptions)[i].price > 0.0 && ProductRows(descriptions)[i].stock >= 0
  {
  }

  /** Every seeded product names a seeded seller. */
  lemma SeedProductsHaveSellers(productTexts: seq<string>, sellerTexts: seq<string>)
    ensures forall i :: 0 <= i < |ProductRows(productTexts)| ==>
      ListsSeller(SellerRows(sellerTexts), ProductRows(productTexts)[i].sellerId)
  {
    var ss := SellerRows(sellerTexts);
    assert ss[0].id == "s1" && ss[1].id == "s2" && ss[2].id == "s3" && ss[3].id == "s4";
    assert ListsSeller(ss, "s1") && ListsSeller(ss, "s2") && ListsSeller(ss, "s3") && ListsSeller(ss, "s4");
    assert forall i :: 0 <= i < |ProductRows(productTexts)| ==>
      ProductRows(productTexts)[i].sellerId in ["s1", "s2", "s3", "s4"];
  }

  /** Every seeded seller lists no more products than its tier allows. */
  lemma SeedSellersWithinTierLimits(descriptions: seq<string>)
    ensures forall i :: 0 <= i < |SellerRows(descriptions)| ==>
      var limit := TierRow(SellerRows(descriptions)[i].subscriptionTier).productLimit;
      limit == UnlimitedSentinel || SellerRows(descriptions)[i].productCount <= limit
  {
  }

  /** `getCategoryLabel`: the display name of a category. */
  function CategoryLabel(c: ProductCategory): string
  {
    match c
    case Farm => "Farm Produce"
    case Groceries => "Groceries"
    case Handmade => "Handmade"
  }

  /** Different categories are shown with different labels. */
  lemma CategoryLabelInjective(a: ProductCategory, b: ProductCategory)
    requires CategoryLabel(a) == CategoryLabel(b)
    ensures a == b
  {
  }

  /** `getCategoryIcon`: a seedling, a shopping cart or a ball of yarn. */
  function CategoryIcon(c: ProductCategory): string
  {
    match c
    case Farm => "\U{1F331}"
    case Groceries => "\U{1F6D2}"
    case Handmade => "\U{1F9F6}"
  }

  lemma CategoryIconInjective(a: ProductCategory, b: ProductCategory)
    requires CategoryIcon(a) == CategoryIcon(b)
    ensures a == b
  {
  }

  /** `getDeliveryLabel` takes any string; an unknown option reads "Unknown". */
  function DeliveryLabel(option: string): string
  {
    if option == "delivery" then "Delivery Only"
    else if option == "pickup" then "Pickup Only"
    else if option == "both" then "Delivery & Pickup"
    else "Unknown"
  }

  /** The wire spelling of a delivery option. */
  function DeliveryName(d: DeliveryOption): string
  {
    match d
    case Delivery => "delivery"
    case Pickup => "pickup"
    case Both => "both"
  }

  /** The three known options get three distinct labels, none of them "Unknown". */
  lemma DeliveryLabelsDistinct(a: DeliveryOption, b: DeliveryOption)
    ensures DeliveryLabel(DeliveryName(a)) != "Unknown"
    ensures DeliveryLabel(DeliveryName(a)) == DeliveryLabel(DeliveryName(b)) ==> a == b
  {
  }

  /** Any string that is not one of the three option names reads "Unknown". */
  lemma DeliveryLabelUnknown(option: string)
    requires option != "delivery" && option != "pickup" && option != "both"
    ensures DeliveryLabel(option) == "Unknown"
  {
  }
}

=== FILE: navbar.dfy ===
/**
 * The navigation bar: the cart badge and the account link, both derived from
 * the application context.
 */
module Navbar {
  import opened Types
  import AppContext

  /** `totalItems`: the left-to-right `reduce` of the line quantities, starting at 0. */
  function TotalItems(cart: seq<CartItem>): int
  {
    if cart == [] then 0 else TotalItems(cart[..|cart| - 1]) + cart[|cart| - 1].quantity
  }

  /** The badge with the item count is rendered only when `totalItems > 0`. */
  predicate BadgeShown(cart: seq<CartItem>)
  {
    TotalItems(cart) > 0
  }

  lemma {:induction false} TotalItemsAppend(a: seq<CartItem>, b: seq<CartItem>)
    ensures TotalItems(a + b) == TotalItems(a) + TotalItems(b)
    decreases |b|
  {
    if b == [] {
      assert a + b == a;
    } else {
      var b' := b[..|b| - 1];
      assert (a + b)[..|a + b| - 1] == a + b';
      assert (a + b)[|a + b| - 1] == b[|b| - 1];
      TotalItemsAppend(a, b');
    }
  }

  /** Replacing one line changes the count by the difference of the two quantities. */
  lemma TotalItemsReplace(cart: seq<CartItem>, k: nat, item: CartItem)
    requires k < |cart|
    ensures TotalItems(cart[k := item]) == TotalItems(cart) - cart[k].quantity + item.quantity
  {
    assert cart == cart[..k] + [cart[k]] + cart[k + 1..];
    assert cart[k := item] == cart[..k] + [item] + cart[k + 1..];
    TotalItemsAppend(cart[..k] + [cart[k]], cart[k + 1..]);
    TotalItemsAppend(cart[..k] + [item], cart[k + 1..]);
    TotalItemsAppend(cart[..k], [cart[k]]);
    TotalItemsAppend(cart[..k], [item]);
    assert [cart[k]][..0] == [] && [item][..0] == [];
  }

  /** Adding `quantity` units of any product raises `totalItems` by exactly `quantity`. */
  lemma AddToCartRaisesCount(cart: seq<CartItem>, product: Product, quantity: int)
    requires AppContext.UniqueIds(cart)
    ensures TotalItems(AppContext.AddLines(cart, product, quantity)) == TotalItems(cart) + quantity
  {
    if AppContext.HasLine(cart, product.id) {
      var k :| 0 <= k < |cart| && cart[k].product.id == product.id;
      AppContext.AddToExistingLine(cart, k, product, quantity);
      TotalItemsReplace(cart, k, cart[k].(quantity := cart[k].quantity + quantity));
    } else {
      TotalItemsAppend(cart, [CartItem(product, quantity)]);
      assert [CartItem(product, quantity)][..0] == [];
    }
  }

  /** With only positive lines (as the cart's handlers keep it), the badge shows exactly when the cart has a line. */
  lemma {:induction false} BadgeShownIffNonEmpty(cart: seq<CartItem>)
    requires AppContext.AllPositive(cart)
    ensures BadgeShown(cart) <==> cart != []
    ensures TotalItems(cart) >= |cart|
  {
    if cart != [] {
      BadgeShownIffNonEmpty(cart[..|cart| - 1]);
    }
  }

  /** Where the account button leads and what it says. */
  datatype Link = Link(path: string, text: string)

  /** The desktop account button: guests get Login, sellers the dashboard, customers their account. */
  function AccountLink(userType: UserType): (r: Link)
    ensures r.path == "/login" <==> userType == GuestUser
    ensures r.path == "/dashboard" <==> userType == SellerUser
    ensures r.path == "/account" <==> userType == CustomerUser
    ensures r.text == "Login" <==> userType == GuestUser
    ensures r.text == "Dashboard" <==> userType == SellerUser
    ensures r.text == "My Account" <==> userType == CustomerUser
  {
    match userType
    case GuestUser => Link("/login", "Login")
    case SellerUser => Link("/dashboard", "Dashboard")
    case CustomerUser => Link("/account", "My Account")
  }

  /** The mobile menu's account link: the same targets, with the seller's label spelled out. */
  function MobileAccountLink(userType: UserType): (r: Link)
    ensures r.path == AccountLink(userType).path
    ensures r.text == (if userType == SellerUser then "Seller Dashboard" else AccountLink(userType).text)
  {
    match userType
    case GuestUser => Link("/login", "Login")
    case SellerUser => Link("/dashboard", "Seller Dashboard")
    case CustomerUser => Link("/account", "My Account")
  }
}

=== FILE: orders_management.dfy ===
/**
 * The seller's orders page: the search over orders, the sortable order
 * table (newest first by default), and the status change on the order
 * being viewed.  The order list and its updater come from the application
 * context; they are inputs here.
 */
module OrdersManagement {
  import opened Types
  import Text
  import Seqs
  import Sorting

  /** The search: the order id, customer name or customer email contains the query, ignoring case. */
  function OrderMatches(query: string): Order -> bool
  {
    (o: Order) => Text.ContainsIgnoringCase(o.id, query)
                  || Text.ContainsIgnoringCase(o.customerName, query)
                  || Text.ContainsIgnoringCase(o.customerEmail, query)
  }

  /** `orders?.filter(...) || []`: a missing order list shows nothing. */
  function FilterOrders(orders: Option<seq<Order>>, query: string): (r: seq<Order>)
    ensures orders.None? ==> r == []
    ensures orders.Some? ==> forall o :: o in r <==> o in orders.value && OrderMatches(query)(o)
  {
    match orders
    case None => []
    case Some(os) => Seqs.Filter(os, OrderMatches(query))
  }

  /** The fields the comparator knows how to order by. */
  datatype OrderField = CustomerNameColumn | CreatedAtColumn | UpdatedAtColumn | TotalAmountColumn | StatusColumn

  /**
   * The table's comparator.  With no field it orders by creation time in the
   * current direction; amounts and timestamps compare as numbers; customer
   * name and status collate.
   */
  function OrderComparator(s: Sorting.SortState<OrderField>, coll: Sorting.Collation): Seqs.Comparator<Order>
  {
    match s.field
    case None => Sorting.Directed(Sorting.ByNumber((o: Order) => o.createdAt as real), s.direction)
    case Some(TotalAmountColumn) => Sorting.Directed(Sorting.ByNumber((o: Order) => o.totalAmount), s.direction)
    case Some(CreatedAtColumn) => Sorting.Directed(Sorting.ByNumber((o: Order) => o.createdAt as real), s.direction)
    case Some(UpdatedAtColumn) => Sorting.Directed(Sorting.ByNumber((o: Order) => o.updatedAt as real), s.direction)
    case Some(CustomerNameColumn) => Sorting.Directed(Sorting.ByText((o: Order) => o.customerName, coll), s.direction)
    case Some(StatusColumn) => Sorting.Directed(Sorting.ByText((o: Order) => StatusName(o.status), coll), s.direction)
  }

  lemma OrderComparatorValid(s: Sorting.SortState<OrderField>, coll: Sorting.Collation)
    requires Seqs.IsComparator(coll)
    ensures Seqs.IsComparator(OrderComparator(s, coll))
  {
    match s.field {
      case None => Sorting.ByNumberIsComparator((o: Order) => o.createdAt as real, s.direction);
      case Some(TotalAmountColumn) => Sorting.ByNumberIsComparator((o: Order) => o.totalAmount, s.direction);
      case Some(CreatedAtColumn) => Sorting.ByNumberIsComparator((o: Order) => o.createdAt as real, s.direction);
      case Some(UpdatedAtColumn) => Sorting.ByNumberIsComparator((o: Order) => o.updatedAt as real, s.direction);
      case Some(CustomerNameColumn) => Sorting.ByTextIsComparator((o: Order) => o.customerName, coll, s.direction);
      case Some(StatusColumn) => Sorting.ByTextIsComparator((o: Order) => StatusName(o.status), coll, s.direction);
    }
  }

  /** `sortedOrders`. */
  function SortedOrders(orders: Option<seq<Order>>, query: string, s: Sorting.SortState<OrderField>, coll: Sorting.Collation): seq<Order>
  {
    Seqs.SortBy(FilterOrders(orders, query), OrderComparator(s, coll))
  }

  /** The table is a permutation of the matching orders. */
  lemma SortedIsPermutation(orders: Option<seq<Order>>, query: string, s: Sorting.SortState<OrderField>, coll: Sorting.Collation)
    ensures multiset(SortedOrders(orders, query, s, coll)) == multiset(FilterOrders(orders, query))
    ensures forall o :: o in SortedOrders(orders, query, s, coll) <==> o in FilterOrders(orders, query)
  {
    var f := FilterOrders(orders, query);
    var v := SortedOrders(orders, query, s, coll);
    forall o ensures o in v <==> o in f {
      assert o in v <==> multiset(v)[o] > 0;
      assert o in f <==> multiset(f)[o] > 0;
    }
  }

  /**
   * Before any column is clicked the table lists the newest order first; a
   * sort by amount, creation time or update time orders those numbers in the
   * chosen direction.
   */
  lemma SortedOrderFacts(orders: Option<seq<Order>>, query: string, s: Sorting.SortState<OrderField>, coll: Sorting.Collation)
    requires Seqs.IsComparator(coll)
    ensures var v := SortedOrders(orders, query, s, coll);
      && (s == Sorting.SortState(None, Sorting.Desc) ==> forall i, j :: 0 <= i < j < |v| ==> v[i].createdAt >= v[j].createdAt)
      && (s == Sorting.SortState(Some(TotalAmountColumn), Sorting.Asc) ==> forall i, j :: 0 <= i < j < |v| ==> v[i].totalAmount <= v[j].totalAmount)
      && (s == Sorting.SortState(Some(TotalAmountColumn), Sorting.Desc) ==> forall i, j :: 0 <= i < j < |v| ==> v[i].totalAmount >= v[j].totalAmount)
      && (s == Sorting.SortState(Some(CreatedAtColumn), Sorting.Asc) ==> forall i, j :: 0 <= i < j < |v| ==> v[i].createdAt <= v[j].createdAt)
      && (s == Sorting.SortState(Some(CreatedAtColumn), Sorting.Desc) ==> forall i, j :: 0 <= i < j < |v| ==> v[i].createdAt >= v[j].createdAt)
      && (s == Sorting.SortState(Some(UpdatedAtColumn), Sorting.Asc) ==> forall i, j :: 0 <= i < j < |v| ==> v[i].updatedAt <= v[j].updatedAt)
      && (s == Sorting.SortState(Some(UpdatedAtColumn), Sorting.Desc) ==> forall i, j :: 0 <= i < j < |v| ==> v[i].updatedAt >= v[j].updatedAt)
  {
    var v := SortedOrders(orders, query, s, coll);
    OrderComparatorValid(s, coll);
    Seqs.SortBySorted(FilterOrders(orders, query), OrderComparator(s, coll));
    match s.field {
      case None => Sorting.SortedByNumberKeys(v, (o: Order) => o.createdAt as real, s.direction);
      case Some(TotalAmountColumn) => Sorting.SortedByNumberKeys(v, (o: Order) => o.totalAmount, s.direction);
      case Some(CreatedAtColumn) => Sorting.SortedByNumberKeys(v, (o: Order) => o.createdAt as real, s.direction);
      case Some(UpdatedAtColumn) => Sorting.SortedByNumberKeys(v, (o: Order) => o.updatedAt as real, s.direction);
      case Some(CustomerNameColumn) =>
      case Some(StatusColumn) =>
    }
  }

  /** A sort by customer name or by status orders those texts by the collation, in the chosen direction. */
  lemma SortedOrderTextColumns(orders: Option<seq<Order>>, query: string, s: Sorting.SortState<OrderField>, coll: Sorting.Collation)
    requires Seqs.IsComparator(coll)
    ensures var v := SortedOrders(orders, query, s, coll);
      && (s == Sorting.SortState(Some(CustomerNameColumn), Sorting.Asc) ==>
            forall i, j :: 0 <= i < j < |v| ==> coll(v[i].customerName, v[j].customerName) <= 0.0)
      && (s == Sorting.SortState(Some(CustomerNameColumn), Sorting.Desc) ==>
            forall i, j :: 0 <= i < j < |v| ==> coll(v[j].customerName, v[i].customerName) <= 0.0)
      && (s == Sorting.SortState(Some(StatusColumn), Sorting.Asc) ==>
            forall i, j :: 0 <= i < j < |v| ==> coll(StatusName(v[i].status), StatusName(v[j].status)) <= 0.0)
      && (s == Sorting.SortState(Some(StatusColumn), Sorting.Desc) ==>
            forall i, j :: 0 <= i < j < |v| ==> coll(StatusName(v[j].status), StatusName(v[i].status)) <= 0.0)
  {
    var v := SortedOrders(orders, query, s, coll);
    OrderComparatorValid(s, coll);
    Seqs.SortBySorted(FilterOrders(orders, query), OrderComparator(s, coll));
    match s.field {
      case Some(CustomerNameColumn) => Sorting.SortedByTextKeys(v, (o: Order) => o.customerName, coll, s.direction);
      case Some(StatusColumn) => Sorting.SortedByTextKeys(v, (o: Order) => StatusName(o.status), coll, s.direction);
      case _ =>
    }
  }

  /** A status change forwarded to the order store: any of the five statuses, with no transition rule. */
  datatype StatusUpdate = StatusUpdate(orderId: string, status: OrderStatus)

  /** The page's state: search, sort (starting with no field, descending) and the order open in the dialog. */
  class OrdersPage {
    var searchQuery: string
    var sort: Sorting.SortState<OrderField>
    var viewingOrder: Option<Order>

    constructor ()
      ensures searchQuery == "" && sort == Sorting.SortState(None, Sorting.Desc) && viewingOrder == None
    {
      searchQuery := "";
      sort := Sorting.SortState(None, Sorting.Desc);
      viewingOrder := None;
    }

    /** `handleViewOrder`. */
    method HandleViewOrder(order: Order)
      modifies this
      ensures viewingOrder == Some(order) && searchQuery == old(searchQuery) && sort == old(sort)
    {
      viewingOrder := Some(order);
    }

    /**
     * `handleStatusChange`: when the context provides an updater, forwards the
     * change and refreshes the open order if it is the changed one; without an
     * updater nothing happens.
     */
    method HandleStatusChange(orderId: string, newStatus: OrderStatus, hasUpdater: bool) returns (forwarded: Option<StatusUpdate>)
      modifies this
      ensures hasUpdater ==> forwarded == Some(StatusUpdate(orderId, newStatus))
      ensures !hasUpdater ==> forwarded.None? && viewingOrder == old(viewingOrder)
      ensures hasUpdater && old(viewingOrder).Some? && old(viewingOrder).value.id == orderId ==>
        viewingOrder == Some(old(viewingOrder).value.(status := newStatus))
      ensures !(old(viewingOrder).Some? && old(viewingOrder).value.id == orderId) ==> viewingOrder == old(viewingOrder)
      ensures searchQuery == old(searchQuery) && sort == old(sort)
    {
      if !hasUpdater {
        return None;
      }
      forwarded := Some(StatusUpdate(orderId, newStatus));
      if viewingOrder.Some? && viewingOrder.value.id == orderId {
        viewingOrder := Some(viewingOrder.value.(status := newStatus));
      }
    }

    /** `handleSort`: a new column starts descending. */
    method HandleSort(field: OrderField)
      modifies this
      ensures sort == Sorting.HandleSort(old(sort), field, Sorting.Desc)
      ensures searchQuery == old(searchQuery) && viewingOrder == old(viewingOrder)
    {
      if sort.field == Some(field) {
        sort := Sorting.SortState(sort.field, Sorting.Flip(sort.direction));
      } else {
        sort := Sorting.SortState(Some(field), Sorting.Desc);
      }
    }

    /** The rows of the order table. */
    function Rows(orders: Option<seq<Order>>, coll: Sorting.Collation): seq<Order>
      reads this
    {
      SortedOrders(orders, searchQuery, sort, coll)
    }
  }

  /** A status change touches nothing of the open order but its status. */
  lemma StatusChangeKeepsOrder(o: Order, status: OrderStatus)
    ensures var c := o.(status := status);
      c.status == status && c.id == o.id && c.items == o.items && c.totalAmount == o.totalAmount
      && c.payment == o.payment && c.createdAt == o.createdAt && c.updatedAt == o.updatedAt
  {
  }
}

=== FILE: product_detail.dfy ===
/**
 * The product detail page: the catalogue lookup by id, the quantity
 * selector and the add-to-cart button.
 */
module ProductDetail {
  import opened Types
  import AppContext
  import MockData

  /** `PRODUCTS.find(p => p.id === id)`: the first product with that id, if any. */
  function FindProduct(products: seq<Product>, id: string): (r: Option<Product>)
    ensures r.None? <==> forall i :: 0 <= i < |products| ==> products[i].id != id
    ensures r.Some? ==> exists i :: 0 <= i < |products| && products[i] == r.value && r.value.id == id
                          && forall j :: 0 <= j < i ==> products[j].id != id
  {
    if products == [] then None
    else if products[0].id == id then Some(products[0])
    else
      var r := FindProduct(products[1..], id);
      if r.Some? then
        var i :| 0 <= i < |products[1..]| && products[1..][i] == r.value && r.value.id == id
                 && forall j :: 0 <= j < i ==> products[1..][j].id != id;
        assert products[i + 1] == r.value;
        r
      else
        r
  }

  datatype DetailView = NotFound | Found(product: Product)

  /** What the page renders for a route id: the not-found view, or the product's page. */
  function View(id: string): DetailView
  {
    match FindProduct(MockData.Products(), id)
    case None => NotFound
    case Some(p) => Found(p)
  }

  /** The quantity after pressing a button that changes it by `change`: kept only if within 1 to stock. */
  function NextQuantity(quantity: int, change: int, stock: int): int
  {
    var q := quantity + change;
    if q >= 1 && q <= stock then q else quantity
  }

  /** The quantity after a sequence of button presses, starting from `quantity`. */
  function Replay(quantity: int, changes: seq<int>, stock: int): int
    decreases |changes|
  {
    if changes == [] then quantity else Replay(NextQuantity(quantity, changes[0], stock), changes[1..], stock)
  }

  /** Starting from 1 with at least one item in stock, the quantity stays in 1..stock under any presses. */
  lemma {:induction false} ReplayStaysInRange(quantity: int, changes: seq<int>, stock: int)
    requires 1 <= quantity <= stock
    ensures 1 <= Replay(quantity, changes, stock) <= stock
    decreases |changes|
  {
    if changes != [] {
      ReplayStaysInRange(NextQuantity(quantity, changes[0], stock), changes[1..], stock);
    }
  }

  /** The page for one found product: its selected quantity, which starts at 1. */
  class ProductDetailView {
    const product: Product
    var quantity: int

    /** Within 1..stock, or still at the initial 1 when the product is out of stock. */
    ghost predicate Valid()
      reads this
    {
      1 <= quantity && (quantity <= product.stock || quantity == 1)
    }

    constructor (product: Product)
      ensures this.product == product && quantity == 1 && Valid()
    {
      this.product := product;
      quantity := 1;
    }

    /** `handleQuantityChange`: a change that would leave 1..stock is ignored. */
    method HandleQuantityChange(change: int)
      requires Valid()
      modifies this
      ensures quantity == NextQuantity(old(quantity), change, product.stock)
      ensures 1 <= old(quantity) + change <= product.stock ==> quantity == old(quantity) + change
      ensures !(1 <= old(quantity) + change <= product.stock) ==> quantity == old(quantity)
      ensures Valid()
    {
      var newQuantity := quantity + change;
      if newQuantity >= 1 && newQuantity <= product.stock {
        quantity := newQuantity;
      }
    }

    /** `handleAddToCart`: adds the selected quantity to the cart, then resets the selector to 1. */
    method HandleAddToCart(app: AppContext.AppState)
      requires Valid()
      modifies this, app
      ensures app.cart == AppContext.AddLines(old(app.cart), product, old(quantity))
      ensures app.userType == old(app.userType)
      ensures quantity == 1 && Valid()
    {
      app.AddToCart(product, quantity);
      quantity := 1;
    }
  }
}

=== FILE: product_form.dfy ===
/**
 * The seller's product form: its validation rules, the values it opens
 * with, and the image picker with its size and type checks.
 */
module ProductForm {
  import opened Types
  import Text
  import MockData
  import Server

  /** The form's fields; price and stock are numbers coerced from the inputs. */
  datatype FormValues = FormValues(
    name: string,
    description: string,
    price: real,
    image: string,
    category: string,
    stock: real,
    deliveryOption: string)

  predicate IsWhole(x: real)
  {
    x.Floor as real == x
  }

  predicate IsCategoryName(s: string)
  {
    s == "groceries" || s == "handmade" || s == "farm"
  }

  predicate IsDeliveryName(s: string)
  {
    s == "delivery" || s == "pickup" || s == "both"
  }

  /** The form schema: name of 3+ characters, description of 10+, positive price, whole non-negative stock, known enums. */
  predicate FormValid(v: FormValues)
  {
    && |v.name| >= 3
    && |v.description| >= 10
    && v.price > 0.0
    && IsWhole(v.stock) && v.stock >= 0.0
    && IsCategoryName(v.category)
    && IsDeliveryName(v.deliveryOption)
  }

  /** The values the form opens with: the product's own, each falling back (`||`) when it is falsy. */
  function DefaultValues(product: Option<Product>): FormValues
  {
    match product
    case None => FormValues("", "", 0.0, PlaceholderImage, "farm", 0.0, "both")
    case Some(p) => FormValues(
      p.name, p.description, p.price,
      if p.image == "" then PlaceholderImage else p.image,
      CategoryName(p.category), p.stock as real, MockData.DeliveryName(p.deliveryOption))
  }

  /** A new product's form opens with price 0 and stock 0, so it cannot be submitted unchanged. */
  lemma NewProductDefaultsInvalid()
    ensures var v := DefaultValues(None);
      && v.price == 0.0 && v.stock == 0.0 && v.category == "farm" && v.deliveryOption == "both"
      && v.image == PlaceholderImage
      && !FormValid(v)
  {
  }

  /** Editing an existing product: its defaults are valid exactly when the product itself obeys the rules. */
  lemma ExistingProductDefaults(p: Product)
    ensures FormValid(DefaultValues(Some(p))) <==>
      |p.name| >= 3 && |p.description| >= 10 && p.price > 0.0 && p.stock >= 0
    ensures DefaultValues(Some(p)).image != ""
  {
    var v := DefaultValues(Some(p));
    assert IsWhole(v.stock) by {
      assert (p.stock as real).Floor == p.stock;
    }
    match p.category {
      case Groceries => assert IsCategoryName(v.category);
      case Handmade => assert IsCategoryName(v.category);
      case Farm => assert IsCategoryName(v.category);
    }
  }

  /**
   * Every seeded catalogue product opens a form that can be submitted
   * unchanged, given description texts of at least 10 characters, as the
   * shipped ones are (`MockData.ProductDescriptionsLongEnough`).
   */
  lemma SeedProductsPassForm(descriptions: seq<string>)
    requires |descriptions| == 12
    requires forall i :: 0 <= i < |descriptions| ==> |descriptions[i]| >= 10
    ensures forall i :: 0 <= i < |MockData.ProductRows(descriptions)| ==>
      FormValid(DefaultValues(Some(MockData.ProductRows(descriptions)[i])))
  {
    var ps := MockData.ProductRows(descriptions);
    forall i | 0 <= i < |ps| ensures FormValid(DefaultValues(Some(ps[i]))) {
      assert ps[i].description == descriptions[i];
      ExistingProductDefaults(ps[i]);
    }
  }

  /** Why the picker refused a file. */
  datatype PickVerdict = Picked | TooLarge | WrongType

  /** `handleImageUpload`'s checks: the size first (over 2 MiB fails), then the MIME type. */
  function CheckPick(file: UploadFile): (r: PickVerdict)
    ensures r == TooLarge <==> file.size > Server.MaxUploadBytes
    ensures r == WrongType <==> file.size <= Server.MaxUploadBytes && !Text.StartsWith(file.mimeType, "image/")
  {
    if file.size > 2 * 1024 * 1024 then TooLarge
    else if !Text.StartsWith(file.mimeType, "image/") then WrongType
    else Picked
  }

  /**
   * The picker and the server accept exactly the same files; they name
   * different reasons only for a file that is both too large and not an image.
   */
  lemma PickerAgreesWithServer(file: UploadFile)
    ensures CheckPick(file) == Picked <==> Server.CheckUpload(file) == Server.UploadAccepted
    ensures file.size > Server.MaxUploadBytes && !Text.StartsWith(file.mimeType, "image/") ==>
      CheckPick(file) == TooLarge && Server.CheckUpload(file) == Server.NotAnImage
  {
  }

  lemma PickerBoundary()
    ensures CheckPick(UploadFile("image/png", 2 * 1024 * 1024)) == Picked
    ensures CheckPick(UploadFile("image/png", 2 * 1024 * 1024 + 1)) == TooLarge
    ensures CheckPick(UploadFile("application/pdf", 10)) == WrongType
  {
    assert "image/" <= "image/png";
    assert "application/pdf"[0] != "image/"[0];
  }

  /** The form's image value and the preview shown above it. */
  class ImageField {
    var image: string
    var previewImage: Option<string>

    constructor (product: Option<Product>)
      ensures image == DefaultValues(product).image
      ensures previewImage == if product.Some? && product.value.image != "" then Some(product.value.image) else None
    {
      image := DefaultValues(product).image;
      previewImage := if product.Some? && product.value.image != "" then Some(product.value.image) else None;
    }

    /**
     * `handleImageUpload`: no file, a file over 2 MiB or a file that is not an
     * image leaves both values as they were; an accepted file sets both to
     * its object URL.
     */
    method HandleImageUpload(file: Option<UploadFile>, objectUrl: string) returns (verdict: Option<PickVerdict>)
      modifies this
      ensures file.None? ==> verdict.None?
      ensures file.Some? ==> verdict == Some(CheckPick(file.value))
      ensures verdict == Some(Picked) ==> image == objectUrl && previewImage == Some(objectUrl)
      ensures verdict != Some(Picked) ==> image == old(image) && previewImage == old(previewImage)
    {
      if file.None? {
        return None;
      }
      var f := file.value;
      if f.size > 2 * 1024 * 1024 {
        return Some(TooLarge);
      }
      if !Text.StartsWith(f.mimeType, "image/") {
        return Some(WrongType);
      }
      previewImage := Some(objectUrl);
      image := objectUrl;
      verdict := Some(Picked);
    }

    /** `clearImage`: no preview, and the placeholder as the image value. */
    method ClearImage()
      modifies this
      ensures previewImage == None && image == PlaceholderImage
    {
      previewImage := None;
      image := PlaceholderImage;
    }
  }
}

=== FILE: product_management.dfy ===
/**
 * The seller's product management page: the subscription limit on the
 * number of listings, the add-product handler, and the searchable, sortable
 * product table with its stock classification.
 */
module ProductManagement {
  import opened Types
  import Text
  import Seqs
  import Sorting
  import MockData
  import ProductForm

  /** `getProductLimit`'s answer: a number, or the string "Unlimited". */
  datatype ProductLimit = Limited(n: nat) | Unlimited

  /** `getProductLimit`: 10 for basic, 50 for standard, unlimited for premium. */
  function GetProductLimit(tier: SubscriptionTier): (r: ProductLimit)
    ensures r.Unlimited? <==> MockData.TierRow(tier).productLimit == MockData.UnlimitedSentinel
    ensures r.Limited? ==> r.n == MockData.TierRow(tier).productLimit
  {
    match tier
    case Basic => Limited(10)
    case Standard => Limited(50)
    case Premium => Unlimited
  }

  /** `canAddMoreProducts`: an unlimited tier, or fewer listings than the limit. */
  predicate CanAddMoreProducts(limit: ProductLimit, count: nat)
  {
    limit.Unlimited? || count < limit.n
  }

  /** A basic seller can add a tenth listing but not an eleventh; premium never runs out; higher tiers allow at least as much. */
  lemma ProductLimitFacts(count: nat)
    ensures CanAddMoreProducts(GetProductLimit(Basic), 9) && !CanAddMoreProducts(GetProductLimit(Basic), 10)
    ensures CanAddMoreProducts(GetProductLimit(Standard), 10) && !CanAddMoreProducts(GetProductLimit(Standard), 50)
    ensures CanAddMoreProducts(GetProductLimit(Premium), count)
    ensures CanAddMoreProducts(GetProductLimit(Basic), count) ==> CanAddMoreProducts(GetProductLimit(Standard), count)
    ensures CanAddMoreProducts(GetProductLimit(Standard), count) ==> CanAddMoreProducts(GetProductLimit(Premium), count)
  {
    MockData.TierTableShape();
  }

  /** The listings the page starts with, all of seller `s5`. */
  function SeedProducts(): seq<Product>
  {
    [ Product("p1", "Farm Fresh Eggs", "Locally sourced farm fresh eggs", 4.99, PlaceholderImage, Farm, "s5", 24, Both),
      Product("p2", "Organic Tomatoes", "Homegrown organic tomatoes", 3.49, PlaceholderImage, Farm, "s5", 15, Delivery),
      Product("p3", "Handmade Soap", "Natural handmade soap with lavender", 6.99, PlaceholderImage, Handmade, "s5", 8, Pickup),
      Product("p4", "Fresh Honey", "Raw unfiltered local honey", 9.99, PlaceholderImage, Farm, "s5", 12, Both),
      Product("p5", "Artisan Bread", "Freshly baked sourdough bread", 5.49, PlaceholderImage, Handmade, "s5", 6, Pickup) ]
  }

  function ParseCategory(s: string): ProductCategory
    requires ProductForm.IsCategoryName(s)
  {
    if s == "groceries" then Groceries else if s == "handmade" then Handmade else Farm
  }

  function ParseDelivery(s: string): DeliveryOption
    requires ProductForm.IsDeliveryName(s)
  {
    if s == "delivery" then Delivery else if s == "pickup" then Pickup else Both
  }

  /** The listing `handleAddProduct` builds: the drawn id, the form's values, and seller `s5`. */
  function ProductFromForm(id: string, v: ProductForm.FormValues): Product
    requires ProductForm.FormValid(v)
  {
    Product(id, v.name, v.description, v.price, v.image, ParseCategory(v.category), "s5",
            v.stock.Floor, ParseDelivery(v.deliveryOption))
  }

  /** A listing built from a valid form opens the edit form with the very values it was built from. */
  lemma FormRoundTrip(id: string, v: ProductForm.FormValues)
    requires ProductForm.FormValid(v) && v.image != ""
    ensures ProductForm.DefaultValues(Some(ProductFromForm(id, v))) == v
  {
  }

  /** The id is drawn as `p` and a number below 1000, so it can repeat a listing's id: drawing 3 gives the third seed's id. */
  lemma DrawnIdMayRepeat()
    ensures "p" + Text.NatToString(3) == SeedProducts()[2].id
  {
  }

  /** The sortable columns. */
  datatype SortField = NameColumn | PriceColumn | StockColumn | CategoryColumn

  /** The table's comparator: no field keeps the order; price and stock compare numbers; name and category collate. */
  function ProductComparator(s: Sorting.SortState<SortField>, coll: Sorting.Collation): Seqs.Comparator<Product>
  {
    match s.field
    case None => Sorting.NoOrder()
    case Some(NameColumn) => Sorting.Directed(Sorting.ByText((p: Product) => p.name, coll), s.direction)
    case Some(PriceColumn) => Sorting.Directed(Sorting.ByNumber((p: Product) => p.price), s.direction)
    case Some(StockColumn) => Sorting.Directed(Sorting.ByNumber((p: Product) => p.stock as real), s.direction)
    case Some(CategoryColumn) => Sorting.Directed(Sorting.ByText((p: Product) => CategoryName(p.category), coll), s.direction)
  }

  lemma ProductComparatorValid(s: Sorting.SortState<SortField>, coll: Sorting.Collation)
    requires Seqs.IsComparator(coll)
    ensures Seqs.IsComparator(ProductComparator(s, coll))
  {
    match s.field {
      case None =>
      case Some(NameColumn) => Sorting.ByTextIsComparator((p: Product) => p.name, coll, s.direction);
      case Some(PriceColumn) => Sorting.ByNumberIsComparator((p: Product) => p.price, s.direction);
      case Some(StockColumn) => Sorting.ByNumberIsComparator((p: Product) => p.stock as real, s.direction);
      case Some(CategoryColumn) => Sorting.ByTextIsComparator((p: Product) => CategoryName(p.category), coll, s.direction);
    }
  }

  /** The search: the name or the description contains the query, ignoring case. */
  function Matches(query: string): Product -> bool
  {
    (p: Product) => Text.ContainsIgnoringCase(p.name, query) || Text.ContainsIgnoringCase(p.description, query)
  }

  /** `sortedProducts`: the matching listings, sorted. */
  function VisibleProducts(products: seq<Product>, query: string, s: Sorting.SortState<SortField>, coll: Sorting.Collation): seq<Product>
  {
    Seqs.SortBy(Seqs.Filter(products, Matches(query)), ProductComparator(s, coll))
  }

  /** The table shows each matching listing as often as the list holds it, and nothing else. */
  lemma VisibleAreTheMatches(products: seq<Product>, query: string, s: Sorting.SortState<SortField>, coll: Sorting.Collation)
    ensures multiset(VisibleProducts(products, query, s, coll)) == multiset(Seqs.Filter(products, Matches(query)))
    ensures forall p :: p in VisibleProducts(products, query, s, coll) <==> p in products && Matches(query)(p)
  {
    var f := Seqs.Filter(products, Matches(query));
    var v := VisibleProducts(products, query, s, coll);
    forall p ensures p in v <==> p in f {
      assert p in v <==> multiset(v)[p] > 0;
      assert p in f <==> multiset(f)[p] > 0;
    }
  }

  /** An empty search box hides nothing. */
  lemma EmptyQueryMatchesAll(products: seq<Product>)
    ensures Seqs.Filter(products, Matches("")) == products
  {
    forall p | p in products ensures Matches("")(p) {
      Text.ContainsEmpty(Text.Lower(p.name));
    }
    Seqs.FilterKeepsAll(products, Matches(""));
  }

  /** Before any column is clicked, the matches keep the list's order. */
  lemma UnsortedKeepsOrder(products: seq<Product>, query: string, d: Sorting.Direction, coll: Sorting.Collation)
    ensures VisibleProducts(products, query, Sorting.SortState(None, d), coll) == Seqs.Filter(products, Matches(query))
  {
    Seqs.SortByTiesKeepOrder(Seqs.Filter(products, Matches(query)), Sorting.NoOrder<Product>());
  }

  /** Sorting by price or stock orders the numbers in the chosen direction. */
  lemma SortedColumns(products: seq<Product>, query: string, s: Sorting.SortState<SortField>, coll: Sorting.Collation)
    requires Seqs.IsComparator(coll)
    ensures var v := VisibleProducts(products, query, s, coll);
      && (s == Sorting.SortState(Some(PriceColumn), Sorting.Asc) ==> forall i, j :: 0 <= i < j < |v| ==> v[i].price <= v[j].price)
      && (s == Sorting.SortState(Some(PriceColumn), Sorting.Desc) ==> forall i, j :: 0 <= i < j < |v| ==> v[i].price >= v[j].price)
      && (s == Sorting.SortState(Some(StockColumn), Sorting.Asc) ==> forall i, j :: 0 <= i < j < |v| ==> v[i].stock <= v[j].stock)
      && (s == Sorting.SortState(Some(StockColumn), Sorting.Desc) ==> forall i, j :: 0 <= i < j < |v| ==> v[i].stock >= v[j].stock)
  {
    var v := VisibleProducts(products, query, s, coll);
    ProductComparatorValid(s, coll);
    Seqs.SortBySorted(Seqs.Filter(products, Matches(query)), ProductComparator(s, coll));
    match s.field {
      case Some(PriceColumn) => Sorting.SortedByNumberKeys(v, (p: Product) => p.price, s.direction);
      case Some(StockColumn) => Sorting.SortedByNumberKeys(v, (p: Product) => p.stock as real, s.direction);
      case _ =>
    }
  }

  /** Sorting by name or category orders those texts by the collation, in the chosen direction. */
  lemma SortedTextColumns(products: seq<Product>, query: string, s: Sorting.SortState<SortField>, coll: Sorting.Collation)
    requires Seqs.IsComparator(coll)
    ensures var v := VisibleProducts(products, query, s, coll);
      && (s == Sorting.SortState(Some(NameColumn), Sorting.Asc) ==> forall i, j :: 0 <= i < j < |v| ==> coll(v[i].name, v[j].name) <= 0.0)
      && (s == Sorting.SortState(Some(NameColumn), Sorting.Desc) ==> forall i, j :: 0 <= i < j < |v| ==> coll(v[j].name, v[i].name) <= 0.0)
      && (s == Sorting.SortState(Some(CategoryColumn), Sorting.Asc) ==>
            forall i, j :: 0 <= i < j < |v| ==> coll(CategoryName(v[i].category), CategoryName(v[j].category)) <= 0.0)
      && (s == Sorting.SortState(Some(CategoryColumn), Sorting.Desc) ==>
            forall i, j :: 0 <= i < j < |v| ==> coll(CategoryName(v[j].category), CategoryName(v[i].category)) <= 0.0)
  {
    var v := VisibleProducts(products, query, s, coll);
    ProductComparatorValid(s, coll);
    Seqs.SortBySorted(Seqs.Filter(products, Matches(query)), ProductComparator(s, coll));
    match s.field {
      case Some(NameColumn) => Sorting.SortedByTextKeys(v, (p: Product) => p.name, coll, s.direction);
      case Some(CategoryColumn) => Sorting.SortedByTextKeys(v, (p: Product) => CategoryName(p.category), coll, s.direction);
      case _ =>
    }
  }

  datatype StockLevel = Plentiful | Low | OutOfStock

  /** The stock cell: more than 10 is plentiful, 1 to 10 is low, anything else is out of stock. */
  function ClassifyStock(stock: int): (r: StockLevel)
    ensures r == Plentiful <==> stock > 10
    ensures r == Low <==> 1 <= stock <= 10
    ensures r == OutOfStock <==> stock <= 0
  {
    if stock > 10 then Plentiful else if stock > 0 then Low else OutOfStock
  }

  /** The page's state; the subscription is fixed at basic. */
  class ProductManagementPage {
    var products: seq<Product>
    var searchQuery: string
    var sort: Sorting.SortState<SortField>
    const tier: SubscriptionTier

    constructor ()
      ensures products == SeedProducts() && searchQuery == ""
      ensures sort == Sorting.SortState(None, Sorting.Asc) && tier == Basic
    {
      products := SeedProducts();
      searchQuery := "";
      sort := Sorting.SortState(None, Sorting.Asc);
      tier := Basic;
    }

    /** The "Add New Product" button is enabled only while the tier allows another listing. */
    predicate AddButtonEnabled()
      reads this
    {
      CanAddMoreProducts(GetProductLimit(tier), |products|)
    }

    /**
     * `handleAddProduct`, with the drawn id number as input: appends one
     * listing and keeps the rest.  The handler itself does not check the
     * limit; only the disabled button does.
     */
    method HandleAddProduct(form: ProductForm.FormValues, drawn: nat)
      requires ProductForm.FormValid(form)
      modifies this
      ensures products == old(products) + [ProductFromForm("p" + Text.NatToString(drawn), form)]
      ensures |products| == |old(products)| + 1
      ensures searchQuery == old(searchQuery) && sort == old(sort)
    {
      products := products + [ProductFromForm("p" + Text.NatToString(drawn), form)];
    }

    method HandleSort(field: SortField)
      modifies this
      ensures sort == Sorting.HandleSort(old(sort), field, Sorting.Asc)
      ensures products == old(products) && searchQuery == old(searchQuery)
    {
      if sort.field == Some(field) {
        sort := Sorting.SortState(sort.field, Sorting.Flip(sort.direction));
      } else {
        sort := Sorting.SortState(Some(field), Sorting.Asc);
      }
    }

    /** The rows the table shows. */
    function Visible(coll: Sorting.Collation): seq<Product>
      reads this
    {
      VisibleProducts(products, searchQuery, sort, coll)
    }
  }
}

=== FILE: products_page.dfy ===
/**
 * The shopper's product browser: a text search, a category filter and a
 * delivery filter applied one after the other, then one of the sort modes.
 */
module ProductsPage {
  import opened Types
  import Text
  import Seqs
  import Sorting

  /** `selectedCategory`: "all" or one category. */
  datatype CategoryFilter = AllCategories | OnlyCategory(category: ProductCategory)

  /** `deliveryFilter`: "all" or one delivery option. */
  datatype DeliveryFilter = AllOptions | OnlyOption(option: DeliveryOption)

  /** The context's product list, `[]` when it is not provided. */
  function ProductsOrEmpty(products: Option<seq<Product>>): seq<Product>
  {
    if products.Some? then products.value else []
  }

  /** The search predicate: an empty query keeps everything; otherwise name or description contains it, ignoring case. */
  function SearchPredicate(query: string): Product -> bool
  {
    (p: Product) => query == "" || Text.ContainsIgnoringCase(p.name, query) || Text.ContainsIgnoringCase(p.description, query)
  }

  function CategoryPredicate(c: CategoryFilter): Product -> bool
  {
    (p: Product) => c.AllCategories? || p.category == c.category
  }

  /** A chosen delivery option also admits products offering both. */
  function DeliveryPredicate(d: DeliveryFilter): Product -> bool
  {
    (p: Product) => d.AllOptions? || p.deliveryOption == d.option || p.deliveryOption == Both
  }

  /** All three filters at once. */
  function PassesFilters(query: string, c: CategoryFilter, d: DeliveryFilter): Product -> bool
  {
    (p: Product) => SearchPredicate(query)(p) && CategoryPredicate(c)(p) && DeliveryPredicate(d)(p)
  }

  /** The search step: skipped for an empty query. */
  function SearchStep(ps: seq<Product>, query: string): seq<Product>
  {
    if query == "" then ps
    else Seqs.Filter(ps, (p: Product) => Text.ContainsIgnoringCase(p.name, query) || Text.ContainsIgnoringCase(p.description, query))
  }

  function CategoryStep(ps: seq<Product>, c: CategoryFilter): seq<Product>
  {
    match c
    case AllCategories => ps
    case OnlyCategory(cat) => Seqs.Filter(ps, (p: Product) => p.category == cat)
  }

  function DeliveryStep(ps: seq<Product>, d: DeliveryFilter): seq<Product>
  {
    match d
    case AllOptions => ps
    case OnlyOption(o) => Seqs.Filter(ps, (p: Product) => p.deliveryOption == o || p.deliveryOption == Both)
  }

  /** The sort step: price ascending or descending, name by collation, anything else ("featured") keeps the order. */
  function SortStep(ps: seq<Product>, sortBy: string, coll: Sorting.Collation): seq<Product>
  {
    if sortBy == "price-low" then Seqs.SortBy(ps, Sorting.Directed(Sorting.ByNumber((p: Product) => p.price), Sorting.Asc))
    else if sortBy == "price-high" then Seqs.SortBy(ps, Sorting.Directed(Sorting.ByNumber((p: Product) => p.price), Sorting.Desc))
    else if sortBy == "name" then Seqs.SortBy(ps, Sorting.Directed(Sorting.ByText((p: Product) => p.name, coll), Sorting.Asc))
    else ps
  }

  /** The effect's `result`, as the page lists it. */
  function Browse(products: Option<seq<Product>>, query: string, c: CategoryFilter, d: DeliveryFilter, sortBy: string, coll: Sorting.Collation): seq<Product>
  {
    SortStep(DeliveryStep(CategoryStep(SearchStep(ProductsOrEmpty(products), query), c), d), sortBy, coll)
  }

  /** Each step is the filter by its predicate, "all" (and the empty query) being the predicate that keeps everything. */
  lemma StepsAreFilters(ps: seq<Product>, query: string, c: CategoryFilter, d: DeliveryFilter)
    ensures SearchStep(ps, query) == Seqs.Filter(ps, SearchPredicate(query))
    ensures CategoryStep(ps, c) == Seqs.Filter(ps, CategoryPredicate(c))
    ensures DeliveryStep(ps, d) == Seqs.Filter(ps, DeliveryPredicate(d))
  {
    if query == "" {
      Seqs.FilterKeepsAll(ps, SearchPredicate(query));
    } else {
      Seqs.FilterCongruent(ps, SearchPredicate(query),
        (p: Product) => Text.ContainsIgnoringCase(p.name, query) || Text.ContainsIgnoringCase(p.description, query));
    }
    match c {
      case AllCategories => Seqs.FilterKeepsAll(ps, CategoryPredicate(c));
      case OnlyCategory(cat) => Seqs.FilterCongruent(ps, CategoryPredicate(c), (p: Product) => p.category == cat);
    }
    match d {
      case AllOptions => Seqs.FilterKeepsAll(ps, DeliveryPredicate(d));
      case OnlyOption(o) => Seqs.FilterCongruent(ps, DeliveryPredicate(d), (p: Product) => p.deliveryOption == o || p.deliveryOption == Both);
    }
  }

  /** The three filters in a row keep, in order, exactly the products passing all of them. */
  lemma {:induction false} FiltersCompose(ps: seq<Product>, query: string, c: CategoryFilter, d: DeliveryFilter)
    ensures DeliveryStep(CategoryStep(SearchStep(ps, query), c), d) == Seqs.Filter(ps, PassesFilters(query, c, d))
  {
    var s1 := SearchStep(ps, query);
    var s2 := CategoryStep(s1, c);
    StepsAreFilters(ps, query, c, d);
    StepsAreFilters(s1, query, c, d);
    StepsAreFilters(s2, query, c, d);
    var both := (p: Product) => SearchPredicate(query)(p) && CategoryPredicate(c)(p);
    Seqs.FilterFilter(ps, SearchPredicate(query), CategoryPredicate(c), both);
    Seqs.FilterFilter(ps, both, DeliveryPredicate(d), PassesFilters(query, c, d));
  }

  /** Every sort mode only reorders. */
  lemma SortStepPermutes(ps: seq<Product>, sortBy: string, coll: Sorting.Collation)
    ensures multiset(SortStep(ps, sortBy, coll)) == multiset(ps)
  {
  }

  /** The listing is a permutation of exactly the products that pass every active filter. */
  lemma BrowseIsPermutationOfMatches(products: Option<seq<Product>>, query: string, c: CategoryFilter, d: DeliveryFilter, sortBy: string, coll: Sorting.Collation)
    ensures var v := Browse(products, query, c, d, sortBy, coll);
      && multiset(v) == multiset(Seqs.Filter(ProductsOrEmpty(products), PassesFilters(query, c, d)))
      && (forall p :: p in v <==> p in ProductsOrEmpty(products) && PassesFilters(query, c, d)(p))
  {
    var ps := ProductsOrEmpty(products);
    var f := Seqs.Filter(ps, PassesFilters(query, c, d));
    var filtered := DeliveryStep(CategoryStep(SearchStep(ps, query), c), d);
    FiltersCompose(ps, query, c, d);
    assert filtered == f;
    var v := Browse(products, query, c, d, sortBy, coll);
    assert v == SortStep(filtered, sortBy, coll);
    SortStepPermutes(filtered, sortBy, coll);
    forall p ensures p in v <==> p in f {
      assert p in v <==> multiset(v)[p] > 0;
      assert p in f <==> multiset(f)[p] > 0;
    }
  }

  /**
   * "price-low" lists prices non-decreasing, "price-high" non-increasing,
   * "name" in collation order, and any other mode keeps the filtered order.
   */
  lemma SortModes(products: Option<seq<Product>>, query: string, c: CategoryFilter, d: DeliveryFilter, sortBy: string, coll: Sorting.Collation)
    requires Seqs.IsComparator(coll)
    ensures var v := Browse(products, query, c, d, sortBy, coll);
      && (sortBy == "price-low" ==> forall i, j :: 0 <= i < j < |v| ==> v[i].price <= v[j].price)
      && (sortBy == "price-high" ==> forall i, j :: 0 <= i < j < |v| ==> v[i].price >= v[j].price)
      && (sortBy == "name" ==> forall i, j :: 0 <= i < j < |v| ==> coll(v[i].name, v[j].name) <= 0.0)
      && (sortBy != "price-low" && sortBy != "price-high" && sortBy != "name" ==>
            v == Seqs.Filter(ProductsOrEmpty(products), PassesFilters(query, c, d)))
  {
    var ps := ProductsOrEmpty(products);
    var f := DeliveryStep(CategoryStep(SearchStep(ps, query), c), d);
    var v := Browse(products, query, c, d, sortBy, coll);
    FiltersCompose(ps, query, c, d);
    if sortBy == "price-low" {
      Sorting.ByNumberIsComparator((p: Product) => p.price, Sorting.Asc);
      Seqs.SortBySorted(f, Sorting.Directed(Sorting.ByNumber((p: Product) => p.price), Sorting.Asc));
      Sorting.SortedByNumberKeys(v, (p: Product) => p.price, Sorting.Asc);
    } else if sortBy == "price-high" {
      Sorting.ByNumberIsComparator((p: Product) => p.price, Sorting.Desc);
      Seqs.SortBySorted(f, Sorting.Directed(Sorting.ByNumber((p: Product) => p.price), Sorting.Desc));
      Sorting.SortedByNumberKeys(v, (p: Product) => p.price, Sorting.Desc);
    } else if sortBy == "name" {
      Sorting.ByTextIsComparator((p: Product) => p.name, coll, Sorting.Asc);
      Seqs.SortBySorted(f, Sorting.Directed(Sorting.ByText((p: Product) => p.name, coll), Sorting.Asc));
      Sorting.SortedByTextKeys(v, (p: Product) => p.name, coll, Sorting.Asc);
    }
  }

  /** A delivery filter keeps a product offering both options whatever option is chosen, and never one offering only the other option. */
  lemma DeliveryFilterBoth(p: Product, o: DeliveryOption)
    ensures p.deliveryOption == Both ==> DeliveryPredicate(OnlyOption(o))(p)
    ensures p.deliveryOption != Both && p.deliveryOption != o ==> !DeliveryPredicate(OnlyOption(o))(p)
  {
  }
}

=== FILE: promotions.dfy ===
/**
 * The promotional tools page: the product checklist a discount applies to,
 * the discount-code guard, the webhook trigger's loading flag, and the tier
 * tests that unlock its tabs.
 */
module Promotions {
  import opened Types
  import Seqs
  import SellerDashboard

  /** No id occurs twice. */
  ghost predicate NoDuplicates(ids: seq<string>)
  {
    forall x :: multiset(ids)[x] <= 1
  }

  /** `toggleProductSelection`: drop the id when it is selected, append it otherwise. */
  function ToggleSelection(prev: seq<string>, id: string): (r: seq<string>)
    ensures id in r <==> id !in prev
    ensures forall x :: x != id ==> (x in r <==> x in prev)
  {
    if id in prev then Seqs.Filter(prev, (x: string) => x != id) else prev + [id]
  }

  /** Toggling keeps the selection free of duplicates. */
  lemma ToggleKeepsNoDuplicates(prev: seq<string>, id: string)
    requires NoDuplicates(prev)
    ensures NoDuplicates(ToggleSelection(prev, id))
  {
    if id !in prev {
      assert multiset(prev)[id] == 0;
    }
  }

  /** Toggling twice gives back the same selection: the same list when the id was absent, the same ids otherwise. */
  lemma ToggleTwice(prev: seq<string>, id: string)
    ensures forall x :: x in ToggleSelection(ToggleSelection(prev, id), id) <==> x in prev
    ensures id !in prev ==> ToggleSelection(ToggleSelection(prev, id), id) == prev
  {
    if id !in prev {
      var once := prev + [id];
      Seqs.FilterAppend(prev, [id], (x: string) => x != id);
      Seqs.FilterKeepsAll(prev, (x: string) => x != id);
      assert Seqs.Filter([id], (x: string) => x != id) == [];
    }
  }

  /** `isPremium`. */
  predicate IsPremium(tier: SubscriptionTier)
  {
    tier == Premium
  }

  /** `isStandardOrBetter`. */
  predicate IsStandardOrBetter(tier: SubscriptionTier)
  {
    tier == Standard || tier == Premium
  }

  /**
   * The integrations tab needs premium, the email tab standard or better, and
   * the tests agree with the dashboard's tool cards.
   */
  lemma TierTests(tier: SubscriptionTier)
    ensures IsPremium(tier) ==> IsStandardOrBetter(tier)
    ensures IsStandardOrBetter(tier) <==> SellerDashboard.Features(tier)[4].available
    ensures IsPremium(tier) <==> SellerDashboard.Features(tier)[7].available
  {
    SellerDashboard.FeatureAvailability(tier, tier);
  }

  /** What the save button reports. */
  datatype SaveOutcome = MissingCode | DiscountSaved(code: string)

  /** The page's state. */
  class PromotionsPage {
    var discountCode: string
    var webhookUrl: string
    var isLoading: bool
    var appliedProducts: seq<string>

    constructor ()
      ensures discountCode == "" && webhookUrl == "" && !isLoading && appliedProducts == []
    {
      discountCode := "";
      webhookUrl := "";
      isLoading := false;
      appliedProducts := [];
    }

    /** `handleGenerateDiscount`: the randomly drawn code is a parameter. */
    method HandleGenerateDiscount(code: string)
      modifies this
      ensures discountCode == code
      ensures webhookUrl == old(webhookUrl) && isLoading == old(isLoading) && appliedProducts == old(appliedProducts)
    {
      discountCode := code;
    }

    /** `handleSaveDiscount`: refused without a code; saving changes no state. */
    method HandleSaveDiscount() returns (outcome: SaveOutcome)
      ensures outcome == MissingCode <==> discountCode == ""
      ensures outcome.DiscountSaved? ==> outcome.code == discountCode
    {
      if discountCode == "" {
        return MissingCode;
      }
      return DiscountSaved(discountCode);
    }

    method ToggleProductSelection(id: string)
      modifies this
      ensures appliedProducts == ToggleSelection(old(appliedProducts), id)
      ensures discountCode == old(discountCode) && webhookUrl == old(webhookUrl) && isLoading == old(isLoading)
    {
      appliedProducts := ToggleSelection(appliedProducts, id);
    }

    /**
     * The synchronous part of `handleTriggerZapier`: without a URL nothing
     * starts and the loading flag is untouched; otherwise loading begins.
     */
    method BeginTrigger() returns (started: bool)
      modifies this
      ensures started <==> old(webhookUrl) != ""
      ensures started ==> isLoading
      ensures !started ==> isLoading == old(isLoading)
      ensures discountCode == old(discountCode) && webhookUrl == old(webhookUrl) && appliedProducts == old(appliedProducts)
    {
      if webhookUrl == "" {
        return false;
      }
      isLoading := true;
      return true;
    }

    /** The `finally` after the request settles, whether it succeeded or failed. */
    method FinishTrigger()
      modifies this
      ensures !isLoading
      ensures discountCode == old(discountCode) && webhookUrl == old(webhookUrl) && appliedProducts == old(appliedProducts)
    {
      isLoading := false;
    }
  }
}

=== FILE: seller_dashboard.dfy ===
/**
 * The seller dashboard: order counts per status, the five most recent
 * orders, and which tools the seller's subscription unlocks.
 */
module SellerDashboard {
  import opened Types
  import Seqs

  /** The `orderStats` object: one counter per status. */
  datatype StatusCounts = StatusCounts(pending: nat, processing: nat, shipped: nat, delivered: nat, cancelled: nat)

  const NoCounts := StatusCounts(0, 0, 0, 0, 0)

  function CountFor(c: StatusCounts, s: OrderStatus): nat
  {
    match s
    case Pending => c.pending
    case Processing => c.processing
    case Shipped => c.shipped
    case Delivered => c.delivered
    case Cancelled => c.cancelled
  }

  /** `stats[status] += 1`. */
  function Bump(c: StatusCounts, s: OrderStatus): StatusCounts
  {
    match s
    case Pending => c.(pending := c.pending + 1)
    case Processing => c.(processing := c.processing + 1)
    case Shipped => c.(shipped := c.shipped + 1)
    case Delivered => c.(delivered := c.delivered + 1)
    case Cancelled => c.(cancelled := c.cancelled + 1)
  }

  function Total(c: StatusCounts): nat
  {
    c.pending + c.processing + c.shipped + c.delivered + c.cancelled
  }

  /** The counts of a list of orders, one order at a time from the front. */
  function Tally(orders: seq<Order>): StatusCounts
  {
    if orders == [] then NoCounts else Bump(Tally(orders[..|orders| - 1]), orders[|orders| - 1].status)
  }

  /** Every order is counted exactly once: the counters add up to the number of orders. */
  lemma {:induction false} TallyTotal(orders: seq<Order>)
    ensures Total(Tally(orders)) == |orders|
  {
    if orders != [] {
      var init := orders[..|orders| - 1];
      TallyTotal(init);
      BumpTotal(Tally(init), orders[|orders| - 1].status);
    }
  }

  lemma BumpTotal(c: StatusCounts, s: OrderStatus)
    ensures Total(Bump(c, s)) == Total(c) + 1
  {
  }

  /** The orders with one status, by the list's own filter. */
  function WithStatus(orders: seq<Order>, s: OrderStatus): seq<Order>
  {
    Seqs.Filter(orders, (o: Order) => o.status == s)
  }

  /** Bumping one status moves only that status's counter, by one. */
  lemma BumpCount(c: StatusCounts, bumped: OrderStatus, s: OrderStatus)
    ensures CountFor(Bump(c, bumped), s) == CountFor(c, s) + (if bumped == s then 1 else 0)
  {
  }

  lemma WithStatusSnoc(init: seq<Order>, last: Order, s: OrderStatus)
    ensures |WithStatus(init + [last], s)| == |WithStatus(init, s)| + (if last.status == s then 1 else 0)
  {
    Seqs.FilterAppend(init, [last], (o: Order) => o.status == s);
    assert [last][1..] == [];
  }

  /** Each counter is the number of orders with that status. */
  lemma {:induction false} TallyCountsStatus(orders: seq<Order>, s: OrderStatus)
    ensures CountFor(Tally(orders), s) == |WithStatus(orders, s)|
  {
    if orders != [] {
      var init := orders[..|orders| - 1];
      var last := orders[|orders| - 1];
      TallyCountsStatus(init, s);
      BumpCount(Tally(init), last.status, s);
      assert orders == init + [last];
      WithStatusSnoc(init, last, s);
    }
  }

  /** `orders.forEach(order => { stats[order.status] += 1 })`. */
  method CountStatuses(orders: seq<Order>) returns (stats: StatusCounts)
    ensures stats == Tally(orders)
    ensures Total(stats) == |orders|
  {
    stats := NoCounts;
    var i := 0;
    while i < |orders|
      invariant 0 <= i <= |orders|
      invariant stats == Tally(orders[..i])
    {
      var prefix := orders[..i + 1];
      assert prefix[..i] == orders[..i];
      stats := Bump(stats, orders[i].status);
      i := i + 1;
    }
    assert orders[..i] == orders;
    TallyTotal(orders);
  }

  /** The "In Process" figure. */
  function InProcess(c: StatusCounts): nat
  {
    c.processing + c.shipped
  }

  /** "In Process" counts exactly the orders being processed or shipped. */
  lemma InProcessCounts(orders: seq<Order>)
    ensures InProcess(Tally(orders)) == |Seqs.Filter(orders, (o: Order) => o.status == Processing || o.status == Shipped)|
  {
    TallyCountsStatus(orders, Processing);
    TallyCountsStatus(orders, Shipped);
    InProcessSplit(orders);
  }

  lemma {:induction false} InProcessSplit(orders: seq<Order>)
    ensures |Seqs.Filter(orders, (o: Order) => o.status == Processing || o.status == Shipped)|
         == |WithStatus(orders, Processing)| + |WithStatus(orders, Shipped)|
  {
    if orders != [] {
      InProcessSplit(orders[1..]);
    }
  }

  /** `orders.slice(0, 5)`. */
  function RecentOrders(orders: seq<Order>): (r: seq<Order>)
    ensures |r| == if |orders| < 5 then |orders| else 5
    ensures r <= orders
  {
    if |orders| <= 5 then orders else orders[..5]
  }

  /** The dashboard's derived state; it is recomputed only when an order list is present. */
  class Dashboard {
    var recentOrders: seq<Order>
    var orderStats: StatusCounts

    constructor ()
      ensures recentOrders == [] && orderStats == NoCounts
    {
      recentOrders := [];
      orderStats := NoCounts;
    }

    /** The effect on `orders`: without a list nothing changes. */
    method OnOrders(orders: Option<seq<Order>>)
      modifies this
      ensures orders.None? ==> recentOrders == old(recentOrders) && orderStats == old(orderStats)
      ensures orders.Some? ==> recentOrders == RecentOrders(orders.value) && orderStats == Tally(orders.value)
    {
      if orders.Some? {
        recentOrders := RecentOrders(orders.value);
        orderStats := CountStatuses(orders.value);
      }
    }
  }

  /** The "Total Orders" card: `orders?.length || 0`. */
  function TotalOrders(orders: Option<seq<Order>>): nat
  {
    if orders.Some? then |orders.value| else 0
  }

  /** A dashboard tool card. */
  datatype Feature = Feature(title: string, link: string, available: bool, comingSoon: bool)

  /** The eight tool cards for a tier. */
  function Features(tier: SubscriptionTier): seq<Feature>
  {
    var standardUp := tier == Standard || tier == Premium;
    var premium := tier == Premium;
    [ Feature("Product Management", "/seller/products", true, false),
      Feature("Orders", "/seller/orders", true, false),
      Feature("Analytics", "/seller/analytics", true, false),
      Feature("Promotional Tools", "/seller/promotions", true, false),
      Feature("Shipping Management", "/seller/shipping", standardUp, tier == Basic),
      Feature("Customer Support", "/seller/customer-support", standardUp, tier == Basic),
      Feature("Advanced Analytics", "/seller/advanced-analytics", premium, tier == Basic || tier == Standard),
      Feature("Marketing Automation", "/seller/marketing-automation", premium, tier == Basic || tier == Standard) ]
  }

  /** Tier order: basic, standard, premium. */
  function Rank(tier: SubscriptionTier): nat
  {
    match tier
    case Basic => 0
    case Standard => 1
    case Premium => 2
  }

  /**
   * The first four tools are always available; shipping and support from
   * standard up; advanced analytics and marketing only for premium.  Every
   * card is "coming soon" exactly when it is not available, and a higher
   * tier never loses a tool.
   */
  lemma FeatureAvailability(tier: SubscriptionTier, higher: SubscriptionTier)
    ensures |Features(tier)| == 8
    ensures forall i :: 0 <= i < 4 ==> Features(tier)[i].available
    ensures Features(tier)[4].available <==> tier != Basic
    ensures Features(tier)[5].available <==> tier != Basic
    ensures Features(tier)[6].available <==> tier == Premium
    ensures Features(tier)[7].available <==> tier == Premium
    ensures forall i :: 0 <= i < 8 ==> Features(tier)[i].comingSoon == !Features(tier)[i].available
    ensures Rank(tier) <= Rank(higher) ==>
      forall i :: 0 <= i < 8 && Features(tier)[i].available ==> Features(higher)[i].available
  {
  }
}

=== FILE: sellers_page.dfy ===
/**
 * The seller directory: one filter (search and tier together) followed by
 * one comparator chosen by the sort menu, over the seeded sellers.
 */
module SellersPage {
  import opened Types
  import Text
  import Seqs
  import Sorting
  import MockData

  /** `tierFilter`: "all" or one tier. */
  datatype TierFilter = AllTiers | OnlyTier(tier: SubscriptionTier)

  /** An empty query matches every seller; otherwise name, description or location must contain it, ignoring case. */
  predicate MatchesSearch(s: Seller, query: string)
  {
    query == ""
    || Text.ContainsIgnoringCase(s.name, query)
    || Text.ContainsIgnoringCase(s.description, query)
    || Text.ContainsIgnoringCase(s.location, query)
  }

  predicate MatchesTier(s: Seller, t: TierFilter)
  {
    t.AllTiers? || s.subscriptionTier == t.tier
  }

  /**
   * The comparator of a sort mode: rating and product count highest first,
   * name by collation, and any other mode answers 0.
   */
  function SellerComparator(sortBy: string, coll: Sorting.Collation): Seqs.Comparator<Seller>
  {
    if sortBy == "rating" then Sorting.Directed(Sorting.ByNumber((s: Seller) => s.rating), Sorting.Desc)
    else if sortBy == "products" then Sorting.Directed(Sorting.ByNumber((s: Seller) => s.productCount as real), Sorting.Desc)
    else if sortBy == "name" then Sorting.Directed(Sorting.ByText((s: Seller) => s.name, coll), Sorting.Asc)
    else Sorting.NoOrder()
  }

  /** `filteredSellers`, over any seller list. */
  function FilterSellers(sellers: seq<Seller>, query: string, t: TierFilter, sortBy: string, coll: Sorting.Collation): seq<Seller>
  {
    Seqs.SortBy(Seqs.Filter(sellers, (s: Seller) => MatchesSearch(s, query) && MatchesTier(s, t)), SellerComparator(sortBy, coll))
  }

  /** The page lists the seeded sellers; its sort menu starts on "rating". */
  const DefaultSortBy := "rating"

  function SellersPageView(query: string, t: TierFilter, sortBy: string, coll: Sorting.Collation): seq<Seller>
  {
    FilterSellers(MockData.Sellers(), query, t, sortBy, coll)
  }

  /** A seller appears iff it matches both the search and the tier filter, as often as in the input. */
  lemma ListedIffMatches(sellers: seq<Seller>, query: string, t: TierFilter, sortBy: string, coll: Sorting.Collation)
    ensures var v := FilterSellers(sellers, query, t, sortBy, coll);
      && (forall s :: s in v <==> s in sellers && MatchesSearch(s, query) && MatchesTier(s, t))
      && (forall s :: multiset(v)[s] == if MatchesSearch(s, query) && MatchesTier(s, t) then multiset(sellers)[s] else 0)
  {
    var f := Seqs.Filter(sellers, (s: Seller) => MatchesSearch(s, query) && MatchesTier(s, t));
    var v := FilterSellers(sellers, query, t, sortBy, coll);
    forall s ensures s in v <==> s in f {
      assert s in v <==> multiset(v)[s] > 0;
      assert s in f <==> multiset(f)[s] > 0;
    }
  }

  /** With no query and every tier the whole list is shown. */
  lemma NoFilterListsAll(sellers: seq<Seller>, sortBy: string, coll: Sorting.Collation)
    ensures multiset(FilterSellers(sellers, "", AllTiers, sortBy, coll)) == multiset(sellers)
  {
    Seqs.FilterKeepsAll(sellers, (s: Seller) => MatchesSearch(s, "") && MatchesTier(s, AllTiers));
  }

  /** "rating" lists ratings non-increasing, "products" product counts non-increasing, "name" in collation order. */
  lemma SortModes(sellers: seq<Seller>, query: string, t: TierFilter, sortBy: string, coll: Sorting.Collation)
    requires Seqs.IsComparator(coll)
    ensures var v := FilterSellers(sellers, query, t, sortBy, coll);
      && (sortBy == "rating" ==> forall i, j :: 0 <= i < j < |v| ==> v[i].rating >= v[j].rating)
      && (sortBy == "products" ==> forall i, j :: 0 <= i < j < |v| ==> v[i].productCount >= v[j].productCount)
      && (sortBy == "name" ==> forall i, j :: 0 <= i < j < |v| ==> coll(v[i].name, v[j].name) <= 0.0)
  {
    var f := Seqs.Filter(sellers, (s: Seller) => MatchesSearch(s, query) && MatchesTier(s, t));
    var v := FilterSellers(sellers, query, t, sortBy, coll);
    if sortBy == "rating" {
      Sorting.ByNumberIsComparator((s: Seller) => s.rating, Sorting.Desc);
      Seqs.SortBySorted(f, SellerComparator(sortBy, coll));
      Sorting.SortedByNumberKeys(v, (s: Seller) => s.rating, Sorting.Desc);
    } else if sortBy == "products" {
      Sorting.ByNumberIsComparator((s: Seller) => s.productCount as real, Sorting.Desc);
      Seqs.SortBySorted(f, SellerComparator(sortBy, coll));
      Sorting.SortedByNumberKeys(v, (s: Seller) => s.productCount as real, Sorting.Desc);
    } else if sortBy == "name" {
      Sorting.ByTextIsComparator((s: Seller) => s.name, coll, Sorting.Asc);
      Seqs.SortBySorted(f, SellerComparator(sortBy, coll));
      Sorting.SortedByTextKeys(v, (s: Seller) => s.name, coll, Sorting.Asc);
    }
  }

  /** An unknown sort mode leaves the filtered sellers in their listed order. */
  lemma UnknownModeKeepsOrder(sellers: seq<Seller>, query: string, t: TierFilter, sortBy: string, coll: Sorting.Collation)
    requires sortBy != "rating" && sortBy != "products" && sortBy != "name"
    ensures FilterSellers(sellers, query, t, sortBy, coll)
         == Seqs.Filter(sellers, (s: Seller) => MatchesSearch(s, query) && MatchesTier(s, t))
  {
    Seqs.SortByTiesKeepOrder(Seqs.Filter(sellers, (s: Seller) => MatchesSearch(s, query) && MatchesTier(s, t)), Sorting.NoOrder<Seller>());
  }
}

=== FILE: seqs.dfy ===
/**
 * The two list operations every page of the storefront composes:
 * `Array.prototype.filter` and the stable `Array.prototype.sort` driven by a
 * comparator that answers a number (negative: a first, positive: b first,
 * zero: keep their order).
 */
module Seqs {

  /** `s.filter(f)`: keeps, in order, the elements that pass `f`. */
  function Filter<T(!new)>(s: seq<T>, f: T -> bool): (r: seq<T>)
    ensures |r| <= |s|
    ensures forall i :: 0 <= i < |r| ==> f(r[i])
    ensures forall x :: x in r <==> x in s && f(x)
    ensures forall x :: multiset(r)[x] == if f(x) then multiset(s)[x] else 0
  {
    if s == [] then []
    else
      var rest := Filter(s[1..], f);
      assert multiset(s) == multiset{s[0]} + multiset(s[1..]) by { assert s == [s[0]] + s[1..]; }
      assert forall x :: x in s <==> x == s[0] || x in s[1..];
      if f(s[0]) then [s[0]] + rest else rest
  }

  /** Filtering distributes over concatenation, so the kept elements keep their relative order. */
  lemma {:induction false} FilterAppend<T(!new)>(a: seq<T>, b: seq<T>, f: T -> bool)
    ensures Filter(a + b, f) == Filter(a, f) + Filter(b, f)
  {
    if a == [] {
      assert a + b == b;
    } else {
      assert (a + b)[1..] == a[1..] + b;
      FilterAppend(a[1..], b, f);
    }
  }

  /** A filter that every element passes returns the list unchanged. */
  lemma {:induction false} FilterKeepsAll<T(!new)>(s: seq<T>, f: T -> bool)
    requires forall x :: x in s ==> f(x)
    ensures Filter(s, f) == s
  {
    if s != [] {
      FilterKeepsAll(s[1..], f);
    }
  }

  /** Two filters in a row are one filter by the conjunction. */
  lemma {:induction false} FilterFilter<T(!new)>(s: seq<T>, f: T -> bool, g: T -> bool, h: T -> bool)
    requires forall x :: h(x) == (f(x) && g(x))
    ensures Filter(Filter(s, f), g) == Filter(s, h)
  {
    if s != [] {
      FilterFilter(s[1..], f, g, h);
    }
  }

  /** Two filters that agree on every element give the same result. */
  lemma {:induction false} FilterCongruent<T(!new)>(s: seq<T>, f: T -> bool, g: T -> bool)
    requires forall x :: x in s ==> f(x) == g(x)
    ensures Filter(s, f) == Filter(s, g)
  {
    if s != [] {
      FilterCongruent(s[1..], f, g);
    }
  }

  /** A JavaScript sort comparator. */
  type Comparator<!T> = (T, T) -> real

  /**
   * A comparator that a sort can rely on: swapping the arguments flips the
   * sign, and "a not after b" is transitive.
   */
  ghost predicate IsComparator<T(!new)>(cmp: Comparator<T>)
  {
    && (forall a, b :: cmp(a, b) > 0.0 <==> cmp(b, a) < 0.0)
    && (forall a, b, c :: cmp(a, b) <= 0.0 && cmp(b, c) <= 0.0 ==> cmp(a, c) <= 0.0)
  }

  /** The comparator `(a, b) => cmp(b, a)`: the same order, reversed. */
  function Reverse<T>(cmp: Comparator<T>): Comparator<T>
  {
    (a, b) => cmp(b, a)
  }

  lemma ReverseIsComparator<T(!new)>(cmp: Comparator<T>)
    requires IsComparator(cmp)
    ensures IsComparator(Reverse(cmp))
  {
  }

  /** `s` is in the order `cmp` asks for. */
  ghost predicate SortedBy<T>(s: seq<T>, cmp: Comparator<T>)
  {
    forall i, j :: 0 <= i < j < |s| ==> cmp(s[i], s[j]) <= 0.0
  }

  /** Inserts `x` after every element that does not compare greater than it (stable). */
  function Insert<T>(s: seq<T>, x: T, cmp: Comparator<T>): (r: seq<T>)
    ensures multiset(r) == multiset(s) + multiset{x}
    ensures |r| == |s| + 1
  {
    if s == [] then [x]
    else if cmp(s[|s| - 1], x) > 0.0 then
      assert s == s[..|s| - 1] + [s[|s| - 1]];
      Insert(s[..|s| - 1], x, cmp) + [s[|s| - 1]]
    else s + [x]
  }

  /** `[...s].sort(cmp)`: a stable sort, as the ECMAScript standard requires since 2019. */
  function SortBy<T>(s: seq<T>, cmp: Comparator<T>): (r: seq<T>)
    ensures multiset(r) == multiset(s)
    ensures |r| == |s|
  {
    if s == [] then []
    else
      assert s == s[..|s| - 1] + [s[|s| - 1]];
      Insert(SortBy(s[..|s| - 1], cmp), s[|s| - 1], cmp)
  }

  /** Every element of `s` compares not after `y`. */
  ghost predicate AllNotAfter<T>(s: seq<T>, y: T, cmp: Comparator<T>)
  {
    forall i :: 0 <= i < |s| ==> cmp(s[i], y) <= 0.0
  }

  lemma {:induction false} InsertNotAfter<T>(s: seq<T>, x: T, y: T, cmp: Comparator<T>)
    requires AllNotAfter(s, y, cmp) && cmp(x, y) <= 0.0
    ensures AllNotAfter(Insert(s, x, cmp), y, cmp)
  {
    if s != [] && cmp(s[|s| - 1], x) > 0.0 {
      InsertNotAfter(s[..|s| - 1], x, y, cmp);
    }
  }

  /** Inserting into a sorted list keeps it sorted. */
  lemma {:induction false} InsertSorted<T(!new)>(s: seq<T>, x: T, cmp: Comparator<T>)
    requires IsComparator(cmp)
    requires SortedBy(s, cmp)
    ensures SortedBy(Insert(s, x, cmp), cmp)
  {
    if s != [] {
      var n := |s| - 1;
      var last := s[n];
      if cmp(last, x) > 0.0 {
        var init := s[..n];
        InsertSorted(init, x, cmp);
        assert AllNotAfter(init, last, cmp);
        InsertNotAfter(init, x, last, cmp);
      } else {
        forall i | 0 <= i < n ensures cmp(s[i], x) <= 0.0 {
          assert cmp(s[i], last) <= 0.0;
        }
      }
    }
  }

  /** The sort's result is in comparator order (and, by its contract, a permutation of the input). */
  lemma {:induction false} SortBySorted<T(!new)>(s: seq<T>, cmp: Comparator<T>)
    requires IsComparator(cmp)
    ensures SortedBy(SortBy(s, cmp), cmp)
  {
    if s != [] {
      SortBySorted(s[..|s| - 1], cmp);
      InsertSorted(SortBy(s[..|s| - 1], cmp), s[|s| - 1], cmp);
    }
  }

  /** The elements that compare equal to `a`. */
  function TiedWith<T>(a: T, cmp: Comparator<T>): T -> bool
  {
    (x: T) => cmp(x, a) == 0.0
  }

  lemma FilterSingleton<T(!new)>(y: T, f: T -> bool)
    ensures Filter([y], f) == if f(y) then [y] else []
  {
    assert [y][1..] == [];
  }

  /** Two elements tied with the same `a` never compare greater, either way round. */
  lemma TiedNotAfter<T(!new)>(x: T, y: T, a: T, cmp: Comparator<T>)
    requires IsComparator(cmp)
    requires TiedWith(a, cmp)(x) && TiedWith(a, cmp)(y)
    ensures cmp(y, x) <= 0.0
  {
    assert cmp(y, a) <= 0.0 && cmp(a, x) <= 0.0;
  }

  /** Two one-element filters commute unless both elements pass. */
  lemma SingletonFiltersCommute<T(!new)>(x: T, y: T, f: T -> bool)
    requires !(f(x) && f(y))
    ensures Filter([x], f) + Filter([y], f) == Filter([y], f) + Filter([x], f)
  {
    FilterSingleton(x, f);
    FilterSingleton(y, f);
  }

  lemma SwapLastTwo<T>(a: seq<T>, x: seq<T>, l: seq<T>)
    requires x + l == l + x
    ensures (a + x) + l == (a + l) + x
  {
    calc {
      (a + x) + l;
      a + (x + l);
      a + (l + x);
      (a + l) + x;
    }
  }

  /** The step where `x` moves left past a greater last element. */
  lemma InsertPastGreater<T(!new)>(init: seq<T>, last: T, x: T, a: T, cmp: Comparator<T>)
    requires IsComparator(cmp)
    requires cmp(last, x) > 0.0
    requires Filter(Insert(init, x, cmp), TiedWith(a, cmp)) == Filter(init, TiedWith(a, cmp)) + Filter([x], TiedWith(a, cmp))
    ensures Filter(Insert(init, x, cmp) + [last], TiedWith(a, cmp))
         == Filter(init + [last], TiedWith(a, cmp)) + Filter([x], TiedWith(a, cmp))
  {
    var tied := TiedWith(a, cmp);
    FilterAppend(Insert(init, x, cmp), [last], tied);
    FilterAppend(init, [last], tied);
    if tied(x) && tied(last) {
      TiedNotAfter(x, last, a, cmp);
      assert false;
    }
    SingletonFiltersCommute(x, last, tied);
    SwapLastTwo(Filter(init, tied), Filter([x], tied), Filter([last], tied));
  }

  /** Inserting `x` puts it after every element it ties with. */
  lemma {:induction false} InsertKeepsTiesInOrder<T(!new)>(s: seq<T>, x: T, a: T, cmp: Comparator<T>)
    requires IsComparator(cmp)
    ensures Filter(Insert(s, x, cmp), TiedWith(a, cmp)) == Filter(s, TiedWith(a, cmp)) + Filter([x], TiedWith(a, cmp))
  {
    if s == [] {
      assert Insert(s, x, cmp) == [x];
    } else {
      var init, last := s[..|s| - 1], s[|s| - 1];
      SplitLast(s);
      if cmp(last, x) > 0.0 {
        InsertKeepsTiesInOrder(init, x, a, cmp);
        InsertPastGreater(init, last, x, a, cmp);
      } else {
        FilterAppend(s, [x], TiedWith(a, cmp));
      }
    }
  }

  /**
   * The sort is stable: the elements that compare equal to any `a` appear in
   * the result in the order they had in the input.
   */
  lemma {:induction false} SortByStable<T(!new)>(s: seq<T>, a: T, cmp: Comparator<T>)
    requires IsComparator(cmp)
    ensures Filter(SortBy(s, cmp), TiedWith(a, cmp)) == Filter(s, TiedWith(a, cmp))
  {
    if s != [] {
      var init, last := s[..|s| - 1], s[|s| - 1];
      SplitLast(s);
      SortByStable(init, a, cmp);
      InsertKeepsTiesInOrder(SortBy(init, cmp), last, a, cmp);
      FilterAppend(init, [last], TiedWith(a, cmp));
    }
  }

  /** A comparator that always answers 0 leaves the list exactly as it was. */
  lemma {:induction false} SortByTiesKeepOrder<T>(s: seq<T>, cmp: Comparator<T>)
    requires forall a, b :: cmp(a, b) == 0.0
    ensures SortBy(s, cmp) == s
  {
    if s != [] {
      var init, last := s[..|s| - 1], s[|s| - 1];
      SplitLast(s);
      SortByTiesKeepOrder(init, cmp);
      SortBySnoc(init, last, cmp);
    }
  }

  lemma SplitLast<T>(s: seq<T>)
    requires s != []
    ensures s[..|s| - 1] + [s[|s| - 1]] == s
  {
  }

  /** Appending an element that ties with the last one to a list the sort leaves alone. */
  lemma SortBySnoc<T>(init: seq<T>, last: T, cmp: Comparator<T>)
    requires SortBy(init, cmp) == init
    requires init != [] ==> cmp(init[|init| - 1], last) == 0.0
    ensures SortBy(init + [last], cmp) == init + [last]
  {
    var s := init + [last];
    assert s[..|s| - 1] == init;
    InsertAfterTie(init, last, cmp);
  }

  /** An element that ties with the last one goes at the end. */
  lemma InsertAfterTie<T>(s: seq<T>, x: T, cmp: Comparator<T>)
    requires s != [] ==> cmp(s[|s| - 1], x) == 0.0
    ensures Insert(s, x, cmp) == s + [x]
  {
  }
}

=== FILE: server.dfy ===
/**
 * The development backend: an in-memory product table behind a REST API,
 * with image uploads checked before any handler runs.  Ids are `p1`, `p2`,
 * ... drawn from a counter that only ever grows.
 */
module Server {
  import opened Types
  import Text

  /** The upload limit configured for the file field: 2 MiB. */
  const MaxUploadBytes: nat := 2 * 1024 * 1024

  /** The seller recorded when a created product names none. */
  const DefaultSellerId: string := "s5"

  /**
   * A product as the server stores it.  Category and delivery option are
   * whatever strings the client sent; timestamps are milliseconds.
   */
  datatype ServerProduct = ServerProduct(
    id: string,
    name: string,
    description: string,
    price: real,
    category: string,
    stock: int,
    deliveryOption: string,
    sellerId: string,
    createdAt: int,
    updatedAt: int,
    image: string)

  /** The decoded `productData` form field, with price and stock already read as numbers. */
  datatype ProductData = ProductData(
    name: string,
    description: string,
    price: real,
    category: string,
    stock: int,
    deliveryOption: string,
    sellerId: Option<string>)

  /**
   * The outcome of `JSON.parse(req.body.productData)`: text that is not JSON
   * (or a missing field), the JSON literal `null`, or an object.
   */
  datatype Body = Malformed | NullBody | Parsed(data: ProductData)

  /** Why the upload middleware refused a file. */
  datatype UploadVerdict = UploadAccepted | NotAnImage | FileTooLarge

  /**
   * The middleware's checks: the file filter sees the MIME type first, then
   * the size limit cuts off a file longer than 2 MiB (exactly 2 MiB passes).
   */
  function CheckUpload(file: UploadFile): (r: UploadVerdict)
    ensures r == UploadAccepted <==> Text.StartsWith(file.mimeType, "image/") && file.size <= MaxUploadBytes
    ensures r == NotAnImage <==> !Text.StartsWith(file.mimeType, "image/")
  {
    if !Text.StartsWith(file.mimeType, "image/") then NotAnImage
    else if file.size > MaxUploadBytes then FileTooLarge
    else UploadAccepted
  }

  /** The file part of a request is either absent or a file that the middleware accepted. */
  predicate UploadPasses(file: Option<UploadFile>)
  {
    file.None? || CheckUpload(file.value) == UploadAccepted
  }

  datatype Response =
    | ProductList(products: seq<ServerProduct>)
    | ProductBody(product: ServerProduct)
    | CreatedBody(product: ServerProduct)
    | NoContent
    | NotFound
    | InvalidProductData
    | UploadError(reason: UploadVerdict)

  /**
   * The HTTP status of a response.  An upload refused by the middleware
   * reaches the framework's default error handler, which answers 500.
   */
  function StatusCode(r: Response): (code: nat)
    ensures code == 404 <==> r.NotFound?
    ensures code == 400 <==> r.InvalidProductData?
    ensures 200 <= code < 300 <==> r.ProductList? || r.ProductBody? || r.CreatedBody? || r.NoContent?
  {
    match r
    case ProductList(_) => 200
    case ProductBody(_) => 200
    case CreatedBody(_) => 201
    case NoContent => 204
    case NotFound => 404
    case InvalidProductData => 400
    case UploadError(_) => 500
  }

  /** `products.findIndex(p => p.id === id)`: the first index with that id, or -1. */
  function FindIndex(products: seq<ServerProduct>, id: string): (r: int)
    ensures -1 <= r < |products|
    ensures r == -1 <==> forall i :: 0 <= i < |products| ==> products[i].id != id
    ensures r >= 0 ==> products[r].id == id && forall j :: 0 <= j < r ==> products[j].id != id
  {
    if products == [] then -1
    else if products[0].id == id then 0
    else
      var r := FindIndex(products[1..], id);
      assert forall i :: 1 <= i < |products| ==> products[i] == products[1..][i - 1];
      if r == -1 then -1 else r + 1
  }

  /** The image path a request leaves: the stored upload, or else `fallback`. */
  function ImageFor(file: Option<UploadFile>, storedName: string, fallback: string): string
  {
    if file.Some? then "/uploads/" + storedName else fallback
  }

  /** The record a successful POST appends; the clock is read once per timestamp, and the readings may differ. */
  function NewProduct(id: string, data: ProductData, file: Option<UploadFile>, storedName: string,
                      createdAt: int, updatedAt: int): ServerProduct
  {
    ServerProduct(
      id, data.name, data.description, data.price, data.category, data.stock, data.deliveryOption,
      if data.sellerId.None? || data.sellerId.value == "" then DefaultSellerId else data.sellerId.value,
      createdAt, updatedAt,
      ImageFor(file, storedName, PlaceholderImage))
  }

  /** The record a successful PUT stores: the old one with the editable fields replaced. */
  function UpdatedProduct(existing: ServerProduct, data: ProductData, file: Option<UploadFile>, storedName: string, now: int): ServerProduct
  {
    existing.(
      name := data.name, description := data.description, price := data.price,
      category := data.category, stock := data.stock, deliveryOption := data.deliveryOption,
      updatedAt := now,
      image := ImageFor(file, storedName, existing.image))
  }

  /** A created product gets the placeholder image without an upload and seller `s5` without a seller id. */
  lemma NewProductDefaults(id: string, data: ProductData, file: Option<UploadFile>, storedName: string,
                           createdAt: int, updatedAt: int)
    ensures var p := NewProduct(id, data, file, storedName, createdAt, updatedAt);
      && (file.None? ==> p.image == PlaceholderImage)
      && (file.Some? ==> p.image == "/uploads/" + storedName)
      && ((data.sellerId.None? || data.sellerId == Some("")) ==> p.sellerId == DefaultSellerId)
      && (data.sellerId.Some? && data.sellerId.value != "" ==> p.sellerId == data.sellerId.value)
      && p.id == id && p.createdAt == createdAt && p.updatedAt == updatedAt
  {
  }

  /** An update keeps id, seller and creation time, and the image unless a new one was uploaded. */
  lemma UpdateKeepsIdentity(existing: ServerProduct, data: ProductData, file: Option<UploadFile>, storedName: string, now: int)
    ensures var p := UpdatedProduct(existing, data, file, storedName, now);
      && p.id == existing.id && p.sellerId == existing.sellerId && p.createdAt == existing.createdAt
      && (file.None? ==> p.image == existing.image)
      && p.name == data.name && p.price == data.price && p.stock == data.stock && p.updatedAt == now
  {
  }

  /** The id the server issues for counter value `n`. */
  function IssuedId(n: nat): string
  {
    "p" + Text.NatToString(n)
  }

  /**
   * The store's invariant, stated on values: entry `i` carries the id issued
   * for `numbers[i]`, the numbers strictly increase along the table, and all
   * lie between 1 and the counter.
   */
  ghost predicate Numbered(products: seq<ServerProduct>, numbers: seq<nat>, next: nat)
  {
    && |numbers| == |products|
    && (forall i :: 0 <= i < |products| ==> products[i].id == IssuedId(numbers[i]) && 1 <= numbers[i] < next)
    && (forall i, j :: 0 <= i < j < |numbers| ==> numbers[i] < numbers[j])
  }

  lemma IssuedIdInjective(m: nat, n: nat)
    requires IssuedId(m) == IssuedId(n)
    ensures m == n
  {
    assert IssuedId(m)[1..] == Text.NatToString(m);
    assert IssuedId(n)[1..] == Text.NatToString(n);
    Text.NatToStringInjective(m, n);
  }

  /** Under the invariant no two entries share an id, and the next id to issue is new. */
  lemma NumberedIdsDistinct(products: seq<ServerProduct>, numbers: seq<nat>, next: nat)
    requires Numbered(products, numbers, next)
    ensures forall i, j :: 0 <= i < j < |products| ==> products[i].id != products[j].id
    ensures forall i :: 0 <= i < |products| ==> products[i].id != IssuedId(next)
  {
    forall i, j | 0 <= i < j < |products| ensures products[i].id != products[j].id {
      if products[i].id == products[j].id {
        IssuedIdInjective(numbers[i], numbers[j]);
      }
    }
    forall i | 0 <= i < |products| ensures products[i].id != IssuedId(next) {
      if products[i].id == IssuedId(next) {
        IssuedIdInjective(numbers[i], next);
      }
    }
  }

  /** `products` and `nextProductId`, starting empty and at 1. */
  class ProductStore {
    var products: seq<ServerProduct>
    var nextProductId: nat
    /** The counter value each entry's id was issued from. */
    ghost var numbers: seq<nat>

    ghost predicate Valid()
      reads this
    {
      Numbered(products, numbers, nextProductId) && nextProductId >= 1
    }

    constructor ()
      ensures products == [] && nextProductId == 1 && Valid()
    {
      products := [];
      nextProductId := 1;
      numbers := [];
    }

    /** GET /api/products: the whole table. */
    method GetAll() returns (r: Response)
      ensures r == ProductList(products) && StatusCode(r) == 200
    {
      r := ProductList(products);
    }

    /** GET /api/products/:id: the first entry with that id, or 404; nothing changes either way. */
    method GetById(id: string) returns (r: Response)
      ensures FindIndex(products, id) == -1 ==> r == NotFound
      ensures FindIndex(products, id) >= 0 ==> r == ProductBody(products[FindIndex(products, id)])
      ensures r.ProductBody? ==> r.product in products && r.product.id == id
    {
      var k := FindIndex(products, id);
      if k == -1 {
        return NotFound;
      }
      r := ProductBody(products[k]);
    }

    /**
     * POST /api/products.  The upload is checked first; then the body is
     * parsed.  Unparsable text changes nothing.  A `null` body has already
     * drawn an id when reading its fields fails, so the counter moves on
     * although nothing is stored.  Otherwise the product is appended under
     * the next id.
     */
    method Create(file: Option<UploadFile>, storedName: string, body: Body, createdAt: int, updatedAt: int) returns (r: Response)
      requires Valid()
      modifies this
      ensures Valid()
      ensures !UploadPasses(file) ==>
        r == UploadError(CheckUpload(file.value)) && products == old(products) && nextProductId == old(nextProductId)
      ensures UploadPasses(file) && body.Malformed? ==>
        r == InvalidProductData && products == old(products) && nextProductId == old(nextProductId)
      ensures UploadPasses(file) && body.NullBody? ==>
        r == InvalidProductData && products == old(products) && nextProductId == old(nextProductId) + 1
      ensures UploadPasses(file) && body.Parsed? ==>
        && r == CreatedBody(NewProduct(IssuedId(old(nextProductId)), body.data, file, storedName, createdAt, updatedAt))
        && products == old(products) + [r.product]
        && nextProductId == old(nextProductId) + 1
      ensures r.CreatedBody? ==> forall i :: 0 <= i < |old(products)| ==> old(products)[i].id != r.product.id
    {
      if !UploadPasses(file) {
        return UploadError(CheckUpload(file.value));
      }
      match body {
        case Malformed =>
          return InvalidProductData;
        case NullBody =>
          nextProductId := nextProductId + 1;
          return InvalidProductData;
        case Parsed(data) =>
          NumberedIdsDistinct(products, numbers, nextProductId);
          var p := NewProduct(IssuedId(nextProductId), data, file, storedName, createdAt, updatedAt);
          products := products + [p];
          numbers := numbers + [nextProductId];
          nextProductId := nextProductId + 1;
          r := CreatedBody(p);
      }
    }

    /**
     * PUT /api/products/:id.  The upload is checked first, then the id is
     * looked up (404), then the body is parsed (400); only then is the entry
     * replaced in place.
     */
    method Update(id: string, file: Option<UploadFile>, storedName: string, body: Body, now: int) returns (r: Response)
      requires Valid()
      modifies this
      ensures Valid() && nextProductId == old(nextProductId)
      ensures !UploadPasses(file) ==> r == UploadError(CheckUpload(file.value)) && products == old(products)
      ensures UploadPasses(file) && FindIndex(old(products), id) == -1 ==> r == NotFound && products == old(products)
      ensures UploadPasses(file) && FindIndex(old(products), id) >= 0 && !body.Parsed? ==>
        r == InvalidProductData && products == old(products)
      ensures UploadPasses(file) && FindIndex(old(products), id) >= 0 && body.Parsed? ==>
        var k := FindIndex(old(products), id);
        && r == ProductBody(UpdatedProduct(old(products)[k], body.data, file, storedName, now))
        && products == old(products)[k := r.product]
    {
      if !UploadPasses(file) {
        return UploadError(CheckUpload(file.value));
      }
      var k := FindIndex(products, id);
      if k == -1 {
        return NotFound;
      }
      if !body.Parsed? {
        return InvalidProductData;
      }
      var p := UpdatedProduct(products[k], body.data, file, storedName, now);
      products := products[k := p];
      r := ProductBody(p);
    }

    /** DELETE /api/products/:id: removes the found entry (204) or answers 404; the counter never goes back. */
    method Delete(id: string) returns (r: Response)
      requires Valid()
      modifies this
      ensures Valid() && nextProductId == old(nextProductId)
      ensures FindIndex(old(products), id) == -1 ==> r == NotFound && products == old(products)
      ensures FindIndex(old(products), id) >= 0 ==>
        var k := FindIndex(old(products), id);
        r == NoContent && products == old(products)[..k] + old(products)[k + 1..]
    {
      var k := FindIndex(products, id);
      if k == -1 {
        return NotFound;
      }
      products := products[..k] + products[k + 1..];
      numbers := numbers[..k] + numbers[k + 1..];
      r := NoContent;
    }
  }

  /** Deleting one entry keeps the others in their order and shortens the table by one. */
  lemma DeleteKeepsOthers(products: seq<ServerProduct>, k: nat)
    requires k < |products|
    ensures |products[..k] + products[k + 1..]| == |products| - 1
    ensures forall i :: 0 <= i < |products| && i != k ==>
      products[i] == (products[..k] + products[k + 1..])[if i < k then i else i - 1]
  {
  }
}

=== FILE: sorting.dfy ===
/**
 * The sortable tables of the seller pages: a column header toggles between
 * ascending and descending, and each column compares either numbers or
 * strings (strings through the browser's locale collation).
 */
module Sorting {
  import opened Types
  import Seqs

  datatype Direction = Asc | Desc

  function Flip(d: Direction): (r: Direction)
    ensures r != d
  {
    if d == Asc then Desc else Asc
  }

  /** The sort field (none before the first click) and the direction. */
  datatype SortState<F> = SortState(field: Option<F>, direction: Direction)

  /**
   * `handleSort`: clicking the current column flips the direction; clicking
   * another column selects it with the page's starting direction `reset`.
   */
  function HandleSort<F(==)>(s: SortState<F>, clicked: F, reset: Direction): (r: SortState<F>)
    ensures r.field == Some(clicked)
    ensures s.field == Some(clicked) ==> r.direction != s.direction
    ensures s.field != Some(clicked) ==> r.direction == reset
  {
    if s.field == Some(clicked) then SortState(s.field, Flip(s.direction))
    else SortState(Some(clicked), reset)
  }

  /** Two clicks on the current column restore the state; a new column needs three clicks to come back to `reset`. */
  lemma HandleSortTwice<F>(s: SortState<F>, clicked: F, reset: Direction)
    ensures s.field == Some(clicked) ==> HandleSort(HandleSort(s, clicked, reset), clicked, reset) == s
    ensures HandleSort(HandleSort(HandleSort(s, clicked, reset), clicked, reset), clicked, reset)
            == HandleSort(s, clicked, reset)
  {
  }

  /** The string collation `localeCompare` stands for; it must be a comparator. */
  type Collation = Seqs.Comparator<string>

  /** `a.k - b.k`: ascending numeric order on a key. */
  function ByNumber<T>(key: T -> real): Seqs.Comparator<T>
  {
    (a, b) => key(a) - key(b)
  }

  /** `a.k.localeCompare(b.k)`: ascending collation order on a key. */
  function ByText<T>(key: T -> string, coll: Collation): Seqs.Comparator<T>
  {
    (a, b) => coll(key(a), key(b))
  }

  /** The comparator for a direction: descending swaps the operands, as `b - a` and `b.localeCompare(a)` do. */
  function Directed<T>(cmp: Seqs.Comparator<T>, d: Direction): Seqs.Comparator<T>
  {
    if d == Asc then cmp else Seqs.Reverse(cmp)
  }

  lemma ByNumberIsComparator<T(!new)>(key: T -> real, d: Direction)
    ensures Seqs.IsComparator(Directed(ByNumber(key), d))
  {
    if d == Desc {
      Seqs.ReverseIsComparator(ByNumber(key));
    }
  }

  lemma ByTextIsComparator<T(!new)>(key: T -> string, coll: Collation, d: Direction)
    requires Seqs.IsComparator(coll)
    ensures Seqs.IsComparator(Directed(ByText(key, coll), d))
  {
    var cmp := ByText(key, coll);
    assert Seqs.IsComparator(cmp) by {
      forall a, b, c | cmp(a, b) <= 0.0 && cmp(b, c) <= 0.0 ensures cmp(a, c) <= 0.0 {
        assert coll(key(a), key(b)) <= 0.0 && coll(key(b), key(c)) <= 0.0;
      }
    }
    if d == Desc {
      Seqs.ReverseIsComparator(cmp);
    }
  }

  /** A list sorted by a numeric key: non-decreasing keys ascending, non-increasing descending. */
  lemma SortedByNumberKeys<T>(s: seq<T>, key: T -> real, d: Direction)
    requires Seqs.SortedBy(s, Directed(ByNumber(key), d))
    ensures d == Asc ==> forall i, j :: 0 <= i < j < |s| ==> key(s[i]) <= key(s[j])
    ensures d == Desc ==> forall i, j :: 0 <= i < j < |s| ==> key(s[i]) >= key(s[j])
  {
    if d == Asc {
      forall i, j | 0 <= i < j < |s| ensures key(s[i]) <= key(s[j]) {
        assert Directed(ByNumber(key), d)(s[i], s[j]) <= 0.0;
      }
    } else {
      forall i, j | 0 <= i < j < |s| ensures key(s[i]) >= key(s[j]) {
        assert Directed(ByNumber(key), d)(s[i], s[j]) <= 0.0;
      }
    }
  }

  /** A list sorted by a string key: each key collates not after (ascending) or not before (descending) the later ones. */
  lemma SortedByTextKeys<T>(s: seq<T>, key: T -> string, coll: Collation, d: Direction)
    requires Seqs.SortedBy(s, Directed(ByText(key, coll), d))
    ensures d == Asc ==> forall i, j :: 0 <= i < j < |s| ==> coll(key(s[i]), key(s[j])) <= 0.0
    ensures d == Desc ==> forall i, j :: 0 <= i < j < |s| ==> coll(key(s[j]), key(s[i])) <= 0.0
  {
    if d == Asc {
      forall i, j | 0 <= i < j < |s| ensures coll(key(s[i]), key(s[j])) <= 0.0 {
        assert Directed(ByText(key, coll), d)(s[i], s[j]) <= 0.0;
      }
    } else {
      forall i, j | 0 <= i < j < |s| ensures coll(key(s[j]), key(s[i])) <= 0.0 {
        assert Directed(ByText(key, coll), d)(s[i], s[j]) <= 0.0;
      }
    }
  }

  /** The comparator `() => 0` of a table with no sort field. */
  function NoOrder<T>(): Seqs.Comparator<T>
  {
    (a, b) => 0.0
  }
}

=== FILE: text.dfy ===
/**
 * String helpers shared by the storefront's search boxes and validators:
 * ASCII lower-casing (`toLowerCase`), substring search (`includes`) and
 * prefix tests (`startsWith`).
 */
module Text {

  /** `toLowerCase` on one character; only the ASCII letters A-Z are folded. */
  function LowerChar(c: char): char
  {
    if 'A' <= c <= 'Z' then (c as int + 32) as char else c
  }

  /** `s.toLowerCase()`: same length, every character folded. */
  function Lower(s: string): (r: string)
    ensures |r| == |s|
    ensures forall i :: 0 <= i < |s| ==> r[i] == LowerChar(s[i])
  {
    if s == [] then [] else [LowerChar(s[0])] + Lower(s[1..])
  }

  /** True when `q` occurs in `s` starting at position `i`. */
  ghost predicate OccursAt(s: string, q: string, i: int)
  {
    0 <= i && i + |q| <= |s| && s[i..i + |q|] == q
  }

  /** `s.includes(q)`: the empty query occurs in every string. */
  function Contains(s: string, q: string): (r: bool)
    ensures r <==> exists i :: OccursAt(s, q, i)
    decreases |s|
  {
    if q <= s then
      assert OccursAt(s, q, 0);
      true
    else if |s| == 0 then
      assert forall i :: !OccursAt(s, q, i);
      false
    else
      var r := Contains(s[1..], q);
      assert forall i :: OccursAt(s[1..], q, i) ==> OccursAt(s, q, i + 1) by {
        forall i | OccursAt(s[1..], q, i) ensures OccursAt(s, q, i + 1) {
          assert s[i + 1..i + 1 + |q|] == s[1..][i..i + |q|];
        }
      }
      assert forall i :: OccursAt(s, q, i) && i > 0 ==> OccursAt(s[1..], q, i - 1) by {
        forall i | OccursAt(s, q, i) && i > 0 ensures OccursAt(s[1..], q, i - 1) {
          assert s[1..][i - 1..i - 1 + |q|] == s[i..i + |q|];
        }
      }
      assert !OccursAt(s, q, 0);
      r
  }

  /** Case-insensitive `includes`, as every search box of the storefront does it. */
  predicate ContainsIgnoringCase(s: string, q: string)
  {
    Contains(Lower(s), Lower(q))
  }

  /** An ASCII decimal digit, the class `[0-9]` (and `\d`) of a JavaScript regular expression. */
  predicate IsDigit(c: char)
  {
    '0' <= c <= '9'
  }

  /** Every character of `s` is an ASCII digit. */
  predicate AllDigits(s: string)
  {
    forall i :: 0 <= i < |s| ==> IsDigit(s[i])
  }

  /** `s.startsWith(p)`. */
  predicate StartsWith(s: string, p: string)
  {
    p <= s
  }

  lemma ContainsEmpty(s: string)
    ensures Contains(s, "")
  {
    assert OccursAt(s, "", 0);
  }

  /** The decimal digit character for `d`. */
  function DigitChar(d: nat): char
    requires d < 10
  {
    ('0' as int + d) as char
  }

  /** The value of a decimal digit character. */
  function DigitValue(c: char): nat
    requires IsDigit(c)
  {
    c as int - '0' as int
  }

  /** A number written in decimal, as a JavaScript template literal renders a non-negative integer. */
  function NatToString(n: nat): (r: string)
    ensures |r| >= 1 && AllDigits(r)
  {
    if n < 10 then [DigitChar(n)] else NatToString(n / 10) + [DigitChar(n % 10)]
  }

  /** Reads a non-empty string of decimal digits back as a number. */
  function ParseNat(s: string): nat
    requires |s| >= 1 && AllDigits(s)
  {
    if |s| == 1 then DigitValue(s[0])
    else ParseNat(s[..|s| - 1]) * 10 + DigitValue(s[|s| - 1])
  }

  /** Reading the decimal rendering of a number gives the number back. */
  lemma {:induction false} ParseNatToString(n: nat)
    ensures ParseNat(NatToString(n)) == n
  {
    if n >= 10 {
      var s := NatToString(n);
      var prefix := NatToString(n / 10);
      assert s[..|s| - 1] == prefix;
      ParseNatToString(n / 10);
    }
  }

  /** Different numbers are rendered as different strings. */
  lemma NatToStringInjective(m: nat, n: nat)
    requires NatToString(m) == NatToString(n)
    ensures m == n
  {
    ParseNatToString(m);
    ParseNatToString(n);
  }
}

=== FILE: types.dfy ===
/**
 * The storefront's records: the product catalogue entities, cart lines,
 * sellers and the order snapshot that checkout produces.
 */
module Types {

  datatype Option<T> = None | Some(value: T)

  datatype ProductCategory = Groceries | Handmade | Farm

  datatype DeliveryOption = Delivery | Pickup | Both

  datatype SubscriptionTier = Basic | Standard | Premium

  /** Money is an exact decimal; stock is a whole number. */
  datatype Product = Product(
    id: string,
    name: string,
    description: string,
    price: real,
    image: string,
    category: ProductCategory,
    sellerId: string,
    stock: int,
    deliveryOption: DeliveryOption)

  datatype Seller = Seller(
    id: string,
    name: string,
    description: string,
    logo: Option<string>,
    subscriptionTier: SubscriptionTier,
    productCount: int,
    location: string,
    rating: real)

  /** One cart line; nothing in the type bounds the quantity. */
  datatype CartItem = CartItem(product: Product, quantity: int)

  /** Who the application thinks is signed in. */
  datatype UserType = CustomerUser | SellerUser | GuestUser

  datatype OrderStatus = Pending | Processing | Shipped | Delivered | Cancelled

  datatype PaymentMethod = Mpesa | Card

  datatype PaymentStatus = PaymentPending | PaymentCompleted | PaymentFailed

  datatype Payment = Payment(paymentMethod: PaymentMethod, status: PaymentStatus, transactionId: string)

  datatype ShippingAddress = ShippingAddress(address: string, city: string, county: string, postalCode: string)

  /** A line of a placed order: a copy of the product's name and price at checkout time. */
  datatype OrderItem = OrderItem(productId: string, productName: string, quantity: int, price: real)

  /** Timestamps are milliseconds since the epoch. */
  datatype Order = Order(
    id: string,
    customerId: string,
    customerName: string,
    customerEmail: string,
    customerPhone: string,
    shippingAddress: ShippingAddress,
    items: seq<OrderItem>,
    totalAmount: real,
    status: OrderStatus,
    payment: Payment,
    sellerId: string,
    createdAt: int,
    updatedAt: int)

  /** A file picked in the browser or posted to the server: its MIME type and size in bytes. */
  datatype UploadFile = UploadFile(mimeType: string, size: nat)

  /** The wire spelling of a category, compared by the category sort. */
  function CategoryName(c: ProductCategory): string
  {
    match c
    case Groceries => "groceries"
    case Handmade => "handmade"
    case Farm => "farm"
  }

  /** The wire spelling of an order status, compared by the status sort. */
  function StatusName(s: OrderStatus): string
  {
    match s
    case Pending => "pending"
    case Processing => "processing"
    case Shipped => "shipped"
    case Delivered => "delivered"
    case Cancelled => "cancelled"
  }

  /** The path every product shows when it has no uploaded image. */
  const PlaceholderImage: string := "/placeholder.svg"
}
